=== FILE: README.md ===
# Identity and profile reconciliation, modelled in Dafny

This project models the identity/profile layer of a React + Supabase user
directory. That layer has four parts:

- **The auth gateway** (`authService`). It normalises the typed address, then
  runs the registration fallback chain: `createUser`, then `signUp`, then the
  confirm RPC, then sign-in, then the profile insert. Login retries once when
  the address is unconfirmed.
- **The profile client** (`userService`). It works on the `usuarios` table.
- **The session container** (`AuthProvider`). It holds `{user, profile,
  loading, error}`. Its `register`, `login` (which creates a missing profile),
  `logout`, `updateProfile` and `deleteAccount` reconcile the provider's
  identity with its profile row.
- **The pure logic of the pages that use it.** This covers registration
  validation, the login result, the user list's search, delete and edit, the
  edit/create dialog, and the display fallbacks of the profile page and the
  user card.

Every remote call is replaced by its reply, which is a parameter. The
parameter can be an error object, a granted or denied sign-in, or a fault of
a table query. The `usuarios` table is a `Store`: a map from id to row whose
keys are the rows' ids, which is the primary key. Every operation returns the
calls it issued. This lets contracts say "inserts at most once" or "the
provider receives the normalised address".

JavaScript values are modelled by a few types:

- A property is `Field<T>`: `Undefined`, `Null` or `Val(v)`.
- An error object is `Error(message)`, with `""` standing for a missing
  `message`.
- A service's `{ data, error }` record is `Result<T>`, and `{ error }` is
  `Outcome`.

Modules follow the source:

- `Values`, `Strings`, `Records` and `Table` hold the shared vocabulary, the
  string functions (`split`, `includes`, `toLowerCase`, `parseInt`) and the
  table semantics.
- `AuthService` is `src/services/auth.js`.
- `UserService` is `src/services/users.js`.
- `AuthContext` is `src/contexts/AuthContext.js`.
- `RegisterPage`, `LoginPage`, `UserList` and `ProfilePage` are the pages.
- `UserForm` and `UserCard` are the components.

## Model

| member | source | states |
|---|---|---|
| `AuthService.NormalizeEmail` | src/services/auth.js:10-19 | A handle without '@' gets "@exemplo.com". An address with exactly one '@' and a dotless domain gets ".com" after the domain. Any other address (several '@', or a domain with a dot) is sent unchanged. |
| `AuthService.NormalizedHasAt` | src/services/auth.js:10-19 | The address sent to the provider always contains '@'. |
| `AuthService.NormalizeIdempotent` | src/services/auth.js:10-19 | Normalising an already normalised address changes nothing. |
| `AuthService.SameAddress` | src/services/auth.js:66-148 | When provisioning ends without error, registration and login sign in with the same normalised address for the same typed input. |
| `AuthService.RegisterSignsInAfterProvision` | src/services/auth.js:24-71 | When provisioning ends without error, the call right after the provisioning calls is the sign-in with the normalised address, whichever of them was granted. |
| `AuthService.Provision` | src/services/auth.js:24-64 | `createUser` is always the first call, and when it is granted it is the only one. `signUp` is tried exactly when `createUser` is refused, as the second call. The confirm RPC is tried exactly when both were refused, as the third call. Provisioning ends in an error exactly when all three fail, and that error is `signUp`'s. |
| `AuthService.Register` | src/services/auth.js:6-124 | Every provider call carries the normalised address. The metadata and the profile row keep the address as typed, along with the given name, age and description. Success means exactly one new row, keyed by the answered user's id. Failure leaves the table unchanged. The error is the `signUp` error when provisioning is exhausted, the sign-in's error when sign-in is refused, the insert's error (or the primary-key error) when the insert fails, and 'Falha no registro de usuário' when neither the sign-in nor `createUser` names a user. Otherwise registration succeeds with the sign-in's user, else `createUser`'s. |
| `AuthService.RegisterSignsInSecond` | src/services/auth.js:24-75 | When `createUser` is granted, sign-in is the very next call, with the normalised address. |
| `AuthService.RegisterCalls` | src/services/auth.js:66-117 | Registration signs in at most once and inserts at most one row. It inserts exactly one row when it succeeds. |
| `AuthService.ProvisionExhausted` | src/services/auth.js:34-61 | When all three provisioning calls fail, registration returns the `signUp` error, never signs in and changes no row. |
| `AuthService.RegisterSucceeds` | src/services/auth.js:24-119 | Whichever provisioning call created the identity: once provisioning succeeds and the sign-in (or `createUser`) names a user whose id is free in a reachable table, the row is inserted and the answer names that user. |
| `AuthService.InsertFailureFailsRegister` | src/services/auth.js:91-94 | A failed profile insert makes registration fail even though the identity exists. The calls are exactly createUser, sign-in and the insert. |
| `AuthService.Login` | src/services/auth.js:127-187 | The first call is a sign-in with the normalised address. The confirm RPC and one retry happen exactly when the refusal's message contains "Email not confirmed". In that case the retry's answer is returned and the RPC's own error is ignored. Otherwise the first answer is returned. |
| `AuthService.Logout` | src/services/auth.js:190-199 | One sign-out call. It reports failure exactly when the provider refuses, with the provider's error. |
| `AuthService.GetCurrentUser` | src/services/auth.js:202-211 | One lookup call. It answers with the lookup's user or error. |
| `AuthService.RequestPasswordReset` | src/services/auth.js:214-223 | One reset call with the address as typed. It reports failure exactly when the provider refuses, with the provider's error. |
| `AuthService.ResetSkipsNormalization` | src/services/auth.js:214-216 | Login sends "alice" as "alice@exemplo.com", but a reset request sends it as "alice". |
| `UserService.GetCurrentUserProfile` | src/services/users.js:6-26 | The table is never changed. A failed lookup is an error. No signed-in user gives null without a query. A missing row gives null without error (`maybeSingle`). A found row is the stored row. |
| `UserService.UpdateUserProfile` | src/services/users.js:29-47 | Only the matching row changes, and only its nome, idade, descricao and updated_at. An undefined attribute leaves its column as it was. id, email, the key set and every other row stay the same. A fault changes nothing. |
| `UserService.DeleteUserAccount` | src/services/users.js:50-74 | The row deletion comes first. If it fails, the identity deletion is never tried. Otherwise the calls are the row deletion, the identity deletion and, only when the identity deletion is refused, a sign-out; the answer is success either way. Exactly the row with that id is removed. |
| `UserService.SelectOrdered` | src/services/users.js:79-82 | The rows returned are all the rows of the table, one per row, with the listed columns, ordered by name ascending. |
| `UserService.GetAllUsers` | src/services/users.js:77-90 | One select call. A fault is returned as the error. Otherwise the ordered listing of the whole table is returned. |
| `UserService.GetUserById` | src/services/users.js:93-107 | A missing row is an error (`single`), not null. A found row has the requested id and the listed columns. |
| `UserService.MissingRowContrast` | src/services/users.js:93-101 | For the same missing row, the current-profile fetch answers null, but the lookup by id answers an error. |
| `UserService.CreateUserProfile` | src/services/users.js:110-129 | Exactly one insert of the five copied columns. It succeeds exactly when the table is reachable and the id is present and new. Then the table is the old one plus the new row, keyed by that id, which holds the copied columns (undefined ones stored as NULL). A fault fails with the fault's error. A present id fails on the primary key, and a missing id fails too. |
| `UserService.CreatedProfileFetched` | src/services/users.js:6-129 | A profile created for the signed-in user is what the next profile fetch returns, and creating it again fails on the primary key. |
| `UserService.WritesKeepFilled` | src/services/users.js:29-129 | The update, the insert and the deletion keep every column of every stored row present (NULL at least). An update never writes an undefined value, an insert stores NULL for a missing property, and a deletion only drops rows. |
| `AuthContext.Login` | src/contexts/AuthContext.js:132-170 | Loading ends off. The error is set exactly when the answer is a failure, and carries that failure's message. Login inserts at most one row. |
| `AuthContext.ResolveProfile` | src/contexts/AuthContext.js:140-170 | The user is set before anything else. A found profile gives success with no insert. A failed fetch, a failed self-heal insert and a failed re-fetch each fail with that error's own message, and reading the id of a null user fails with the TypeError. A successful re-fetch decides the profile. A failure keeps the previous profile. The table is either unchanged or holds exactly the self-healed row. |
| `AuthContext.ResolveInserts` | src/contexts/AuthContext.js:142-160 | Resolving the profile adds at most one insert. |
| `AuthContext.LoginRejected` | src/contexts/AuthContext.js:136-139 | A refused sign-in keeps the user, the profile and the table. It records the provider's message and inserts nothing. |
| `AuthContext.LoginFetchFailure` | src/contexts/AuthContext.js:140-145 | A failing profile fetch leaves the new user next to the old profile and fails with the fetch's message. |
| `AuthContext.LoginSelfHeal` | src/contexts/AuthContext.js:147-161 | A missing profile is created exactly once. The new row has the user's id, its metadata name or '', a null age, an empty description and the provider's normalised address. The profile then becomes whatever the single re-fetch returns, null included. |
| `AuthContext.LoginFindsProfile` | src/contexts/AuthContext.js:142-161 | When the row exists, login inserts nothing, changes no row and holds that row. |
| `AuthContext.LoginLinks` | src/contexts/AuthContext.js:140-161 | After a successful login with a faithful provider, the user's row exists and the session's profile is that row. |
| `AuthContext.LoginTwice` | src/contexts/AuthContext.js:132-170 | A second identical login inserts nothing and ends in the same session and table. |
| `AuthContext.Register` | src/contexts/AuthContext.js:54-129 | Loading ends off. The error matches the answer. Every failure carries a non-empty message: the error's own or 'Erro desconhecido durante o registro'. |
| `AuthContext.RegisterLinks` | src/contexts/AuthContext.js:69-84 | Whatever path the gateway took to an identity, a registration whose profile fetch reaches the table for it succeeds, is authenticated and linked, and holds that identity's row exactly when the table has one. |
| `AuthContext.AfterRegister` | src/contexts/AuthContext.js:69-119 | Without a user, registration fails with 'Falha ao obter dados do usuário após registro'. Otherwise the user is set. A fetch without error decides the profile (null included) and inserts nothing. The hand-made insert follows only a failed fetch. A refused insert or re-fetch fails with its own message, or 'Erro desconhecido durante o registro' when that is empty. A successful re-fetch decides the profile. A failure keeps the previous profile. |
| `AuthContext.RegisterRejected` | src/contexts/AuthContext.js:62-67 | A failed gateway registration keeps the user, the profile and the table, and records the message or the fallback. |
| `AuthContext.ManualInsertConflicts` | src/contexts/AuthContext.js:75-99 | The hand-made insert is only tried for an id the gateway has just inserted. On a reachable table it fails on the primary key, so registration fails. |
| `AuthContext.RegisterAlice` | src/contexts/AuthContext.js:54-129 | Registering "alice", aged 30, signs in as "alice@exemplo.com". It stores a row with the new id, the address "alice" and the given name and age, and the session holds that row. |
| `AuthContext.Logout` | src/contexts/AuthContext.js:173-194 | One sign-out call, and the table is untouched. Success clears user and profile. Failure keeps both and records the message. |
| `AuthContext.LogoutThenRestore` | src/contexts/AuthContext.js:173-194 | The logout answer follows the gateway's: success exactly when the provider signs out, and otherwise the provider's message. A successful logout leaves the same session that the start-up check builds when nobody is signed in. |
| `AuthContext.AuthenticationTracksProvider` | src/contexts/AuthContext.js:270 | `isAuthenticated` follows the provider. A login the provider accepts signs the user in, even when the profile step then fails. After a logout the session is authenticated exactly when the sign-out was refused and someone was signed in. After a deletion it is authenticated exactly when someone was signed in and the row deletion failed. |
| `AuthContext.UpdateProfile` | src/contexts/AuthContext.js:197-228 | Without a user it fails with 'Usuário não autenticado' and calls nothing. Otherwise it first sends the update for the user's id, and it succeeds exactly when the update and the re-fetch both answer without error. A failed update fails with its message and keeps the table. A failed re-fetch fails with its message. The user never changes, and a failure keeps the profile. Success shows the re-fetched row of the updated table. |
| `AuthContext.UpdateKeepsLinked` | src/contexts/AuthContext.js:206-219 | An update of a session whose profile belongs to its user keeps it so, when the re-fetch reaches the table. |
| `AuthContext.DeleteAccount` | src/contexts/AuthContext.js:231-257 | Without a user it fails with 'Usuário não autenticado' and calls nothing. It succeeds exactly when the row deletion succeeds, and a failed deletion fails with that error's message. Success clears user and profile and removes only the user's row. Failure keeps the user, the profile and the table. |
| `AuthContext.DeletedProfileGone` | src/contexts/AuthContext.js:240-249 | After a deletion, the next profile fetch for that identity finds nothing, even if the identity survived. |
| `AuthContext.Restore` | src/contexts/AuthContext.js:20-51 | Loading ends off. A failed lookup records its message with nobody signed in. No user means an empty session. A user is set. A successful fetch gives the fetched row as the profile; a failed fetch leaves the profile null and records the fetch's message. |
| `AuthContext.RestoreFollowsGateway` | src/contexts/AuthContext.js:24-31 | The start-up check begins with the gateway's `getCurrentUser`. The restored user is the one that call answers, and a refused lookup leaves nobody signed in and records the gateway's message. |
| `AuthContext.RestoreLinks` | src/contexts/AuthContext.js:30-41 | A restored session is authenticated and linked. It holds the user's row exactly when one exists. |
| `RegisterPage.Validate` | src/pages/Register/index.js:27-48 | The checks run in the order name, age, password. The first failure wins, with its message. Passing means the `userData` is the name and the parsed age, with no description. |
| `RegisterPage.AgeReadBack` | src/pages/Register/index.js:31-35 | An age typed in decimal, optionally negative and followed by non-digits, reaches the session as that number. |
| `Strings.ParseDecimal` | src/pages/Register/index.js:31 | `parseInt(s, 10)` reads back the decimal digits of a number, with or without a minus sign, and ignores what follows them. |
| `RegisterPage.ReportAsWritten` | src/pages/Register/index.js:51-58 | As written, the page redirects to the login page exactly on success, and every failure shows the fallback instead of the session's message. |
| `RegisterPage.AsWrittenHidesReason` | src/pages/Register/index.js:57 | As written, every failure shows the fallback, even a duplicate-key failure. |
| `RegisterPage.Report` | src/pages/Register/index.js:51-58 | Corrected: redirect exactly on success. Otherwise show the session's message, or the fallback when it is empty. |
| `RegisterPage.HandleSubmit` | src/pages/Register/index.js:22-65 | As written: a refused form calls nothing and shows the check's message. A passing form registers with the parsed `userData`. The page leaves for the login page exactly when the registration succeeds. Otherwise it stays with an error shown, which for a failed registration is the fallback. |
| `RegisterPage.SubmitHidesSessionMessage` | src/pages/Register/index.js:49-58 | As written, a sent form redirects exactly on success. Every failed one shows the fallback, even though the session recorded a message. |
| `RegisterPage.HandleSubmitCorrected` | src/pages/Register/index.js:22-65 | Corrected: the same as the page, except that a failed registration shows the session's message. |
| `RegisterPage.SubmitShowsSessionMessage` | src/pages/Register/index.js:49-58 | With the corrected page, a sent form redirects exactly on success. Otherwise it shows the same message the session recorded. |
| `LoginPage.ReportAsWritten` | src/pages/Login/index.js:24-32 | As written, success navigates to the user list; a failure with a message shows the fallback, and a failure with an empty message also navigates to the user list. |
| `LoginPage.AsWrittenMisreports` | src/pages/Login/index.js:24-32 | As written, a failure with a message shows the fallback, and a failure without one navigates to the user list. |
| `LoginPage.SilentRefusalNavigates` | src/pages/Login/index.js:24-28 | As written, a refusal whose error has no message leaves nobody signed in, yet the page moves on. |
| `LoginPage.Report` | src/pages/Login/index.js:24-32 | Corrected: navigate exactly on success. Otherwise show the session's message, or the fallback. |
| `LoginPage.HandleSubmit` | src/pages/Login/index.js:18-36 | As written: the page logs in with the typed address and password. It leaves for the user list exactly on success or on a failure with an empty message. A failure with a message shows the fallback. |
| `LoginPage.SubmitNavigatesSignedOut` | src/pages/Login/index.js:24-28 | As written, a refusal whose error has no message navigates to the user list, with nobody signed in. |
| `LoginPage.HandleSubmitCorrected` | src/pages/Login/index.js:18-36 | Corrected: the page logs in, navigates to the user list exactly on success, and otherwise shows the session's message or the fallback. |
| `LoginPage.NavigatesOnlyWhenSignedIn` | src/pages/Login/index.js:18-36 | With the corrected page and a grant that names a user, reaching the user list implies the session holds that user. |
| `LoginPage.NullGrantNavigatesSignedOut` | src/contexts/AuthContext.js:136-162 | A grant without a user leaves the session's user null, but when the separate profile fetch still finds a row, even the corrected page reaches the user list with nobody signed in. |
| `UserList.Select` | src/pages/UserList/index.js:57-61 | A row is kept exactly when its lower-cased name or address contains the lower-cased term. |
| `UserList.Filter` | src/pages/UserList/index.js:53-64 | An empty term keeps every row. Otherwise the kept rows are exactly the matching rows. |
| `UserList.SelectKeepsOrder` | src/pages/UserList/index.js:58 | Filtering keeps the name order. |
| `UserList.FilterKeepsOrder` | src/pages/UserList/index.js:53-64 | The shown rows keep the name order for any term. |
| `UserList.SelectIsFilter` | src/pages/UserList/index.js:57-61 | The search keeps an order-preserving subsequence of the rows. It holds every matching row as often as it is listed, and no other row. |
| `UserList.FilterIsFilter` | src/pages/UserList/index.js:53-64 | For any term, the shown rows are an order-preserving subsequence of the listed rows. They hold each row the term keeps as often as it is listed, and no other row. |
| `UserList.SelectIdempotent` | src/pages/UserList/index.js:57-61 | Searching the shown rows again for the same term changes nothing. |
| `UserList.SearchIgnoresCase` | src/pages/UserList/index.js:59-60 | Searching for a term and for its lower-cased form shows the same rows. |
| `UserList.FetchUsers` | src/pages/UserList/index.js:28-50 | Without a user the page leaves for '/login' and calls nothing. Otherwise one select is issued. Success shows the whole table in name order, filtered by the term. Failure keeps the rows and shows 'Falha ao carregar usuários. Tente novamente.'. |
| `UserList.LoadedSearchShowsMatchingRows` | src/pages/UserList/index.js:36-64 | After a load, a search shows exactly the table's rows that match, in name order. |
| `UserList.RemoveId` | src/pages/UserList/index.js:80 | The kept rows are exactly those whose id differs. |
| `UserList.RemoveIdKeepsOrder` | src/pages/UserList/index.js:80 | Removing by id keeps the name order. |
| `UserList.RemoveIdIsFilter` | src/pages/UserList/index.js:80 | Removing by id keeps an order-preserving subsequence. It holds every row with another id as often as it is listed, and no row with that id. |
| `UserList.DeleteUser` | src/pages/UserList/index.js:73-88 | An unconfirmed deletion does nothing. A failed one keeps the rows and shows 'Falha ao excluir usuário.'. A successful one drops the id's rows. A refused identity deletion signs out. |
| `UserList.DeleteKeepsMirror` | src/pages/UserList/index.js:73-88 | A page that mirrors the table still mirrors it after a deletion. |
| `UserList.ReplaceById` | src/pages/UserList/index.js:93 | The length is kept. Every row with the edited id becomes the edited record, and all other rows stay. |
| `UserList.FormSuccess` | src/pages/UserList/index.js:91-97 | After an edit, the list keeps its length, the rows with the edited id become the edited record, and the others stay. The search term and error are kept, and the shown rows are the new list filtered by the term. |
| `UserList.EditedEmailOnlyInList` | src/pages/UserList/index.js:91-97 | After an edit that changes the address, the list shows the new address but the table keeps the old one, so the page no longer mirrors the table. |
| `UserForm.Validate` | src/components/UserForm/index.js:12-21 | A name is required. An address is required and must pass the library's address check. |
| `UserForm.Initial` | src/components/UserForm/index.js:80-92 | Editing starts from the record's name and address, and a missing, NULL or empty one opens blank. Adding starts blank. |
| `UserForm.ReopenUnchanged` | src/components/UserForm/index.js:35-92 | Reopening a record that has a name and an address and saving it unchanged hands back the same record. |
| `UserForm.ValidateInitial` | src/components/UserForm/index.js:12-92 | The blank dialog is refused on both fields as required. A record with a name and an accepted address opens as a valid form. |
| `UserForm.Submit` | src/components/UserForm/index.js:35-76 | Editing sends one update for the record's id. Adding sends one insert. A service error changes nothing, hands nothing back, and shows the error's message, else 'Erro ao atualizar usuário. Tente novamente.' or 'Erro ao criar usuário. Tente novamente.'. An edit is saved exactly when the update answers without error. Then the table is the updated one, and the record handed back has the form's name and address on top, with every other column kept. |
| `UserForm.EditKeepsStoredEmail` | src/components/UserForm/index.js:40-46 | Editing stores the new name but not the new address, while the record handed back carries the new address. |
| `UserForm.CreateAlwaysRefused` | src/components/UserForm/index.js:47-58 | Adding never succeeds: the row it sends has no id. |
| `UserCard.AgeSlot` | src/components/UserCard/index.js:41 | A present age shows as that number. A NULL age shows as an empty slot. A missing property shows as 'N/A'. |
| `UserCard.Render` | src/components/UserCard/index.js:34-41 | Name, address and id show the column when it is a non-empty string, and otherwise 'Identidade Desconhecida', 'Ponto de Acesso Indefinido' and 'N/A'. The age slot is `AgeSlot` of the row's age. |
| `UserCard.ListedAgeNeverPlaceholder` | src/components/UserCard/index.js:41 | A row listed from a table whose rows have every column (which the client's writes keep so) has its age property. Its card shows the stored age, or an empty slot for NULL, and never 'N/A'. |
| `ProfilePage.DisplayName` | src/pages/Profile/index.js:61 | The profile's name, else the metadata name, else 'Nome não definido'. |
| `ProfilePage.DisplayEmail` | src/pages/Profile/index.js:60 | The identity's (normalised) address when it is non-empty, not the profile's. With no identity or an empty address, 'N/A'. |
| `ProfilePage.DisplayAge` | src/pages/Profile/index.js:62 | The profile's age as that number whenever it is present, 0 included. With no profile or a NULL age, 'Idade não definida'. |
| `ProfilePage.DisplayDescription` | src/pages/Profile/index.js:63 | The profile's description when it is non-empty. With no profile or an empty, NULL or missing description, 'Sem descrição'. |
| `ProfilePage.DisplayId` | src/pages/Profile/index.js:113 | The identity's id when it is non-empty. With no identity or an empty id, 'N/A'. |
| `ProfilePage.SelfHealedProfileShown` | src/pages/Profile/index.js:61-63 | A self-healed profile shows the metadata name or the placeholder, 'Sem descrição' and 'Idade não definida'. |
| `ProfilePage.NullAgeContrast` | src/pages/Profile/index.js:62 | A NULL age is a placeholder here but an empty slot on a card. |
| `ProfilePage.AlertAsWritten` | src/pages/Profile/index.js:72-76 | As written, any non-empty session error shows 'Ocorreu um erro na autenticação.'. |
| `ProfilePage.Alert` | src/pages/Profile/index.js:72-76 | Corrected: any non-empty session error is shown as it is. |
| `ProfilePage.HandleLogout` | src/pages/Profile/index.js:26-33 | The page always moves to '/login' after a logout. A refused sign-out keeps the session's user and profile. An accepted one leaves nobody signed in. |
| `ProfilePage.LogoutFailureStillLeaves` | src/pages/Profile/index.js:26-33 | A refused sign-out keeps the user signed in, yet the page moves to the login page. |
| `ProfilePage.ConfirmDelete` | src/pages/Profile/index.js:35-51 | The page moves to '/login' exactly when a signed-in user's row deletion succeeds. Otherwise the page stays (no redirect), and the user and table are kept. |

## Behaviour kept as coded

In these places a reader might expect another behaviour. The model keeps
what the code does:

- A failed `deleteAccount` keeps the user and profile. It does not tear the
  session down (src/contexts/AuthContext.js:231-257, `AuthContext.DeleteAccount`).
- When the re-fetch after a self-heal returns null, login sets the profile to
  null and still succeeds (src/contexts/AuthContext.js:147-161,
  `AuthContext.LoginSelfHeal`).
- Registration fails when its hand-made profile insert violates the primary
  key. It does not tolerate the duplicate (src/contexts/AuthContext.js:75-99,
  `AuthContext.ManualInsertConflicts`).
- Operations are not serialised, and nothing rejects an operation while
  another is in progress. The model has no "operation in progress" state.

## Left out

- Concurrency is not modelled: React effect scheduling, the interleaving of
  overlapping async operations and the transient `loading: true` /
  `isLoading` states. Each operation is modelled as the state it settles in.
- I/O is not modelled: console logging, toasts, modals, `window.confirm`
  (a boolean parameter) and the 2.5-second `setTimeout` before the
  registration redirect (the redirect itself is modelled).
- The clock is not modelled: `new Date()` in `updateUserProfile` is a
  parameter `now`, and `created_at` is not selected into the model's rows.
- Supabase internals, the `confirm_user_email` RPC, the database collation
  and Yup's address regular expression are foreign code. The RPC is an
  error parameter. The name order is code-point order with NULL last. The
  address check is a function parameter `isEmail`.
- `toLowerCase` is ASCII case folding only.
- `parseInt` skips only the listed white-space characters.
- Strings.ParseInt: reads an unbounded integer. JavaScript's `parseInt`
  answers a double, which is exact only below 2^53 and is `Infinity` past
  about 309 digits. `Strings.ParseDecimal` and `RegisterPage.AgeReadBack`
  therefore promise an exact read-back that the page keeps only for ages
  below 2^53.
- Table.Column: an insert stores a missing property as NULL, because the
  table's column defaults are not part of this model. `UserForm.CreateAlwaysRefused`
  rests on this: a table with a default for `id` would accept the row.
- The `catch` of the Register page (src/pages/Register/index.js:59-61) is not
  modelled, because the session's `register` never throws.
- AuthContext.ResolveProfile: the TypeError message for reading the id of a
  null user is a fixed constant, not the engine's exact wording.
- UserForm.Submit: adding hands back the submitted values, never `data[0]`.
  The insert asks for no rows back, so `data` is always null. The
  `data[0]` branch of src/components/UserForm/index.js:57 is therefore not
  modelled.
- UserList.FetchUsers: the `data || []` fallback is not modelled, because a
  successful select always answers an array.
- UserList.DeleteKeepsMirror: it states that every table row is listed and
  every listed row is in the table, in name order. It does not claim that the
  list has no duplicates.
- src/App.js (routes, theme, `ProtectedRoute`), the layouts, Header, Footer
  and the Home page are not part of this model. They are configuration and
  presentation.
- The password reset is modelled in the gateway only. No page of this model
  calls it.

## Findings

| source | as written | input that shows it | evidently intended | confidence | as-written member | corrected member |
|---|---|---|---|---|---|---|
| src/pages/Register/index.js:57 | shows `registerError?.message`, but the session's `error` is a string, so `.message` is undefined | any failed registration, e.g. the answer `Failure(duplicate key value violates unique constraint "usuarios_pkey")` | show the session's message, falling back only when it is empty | not executed | `RegisterPage.AsWrittenHidesReason` | `RegisterPage.Report` |
| src/pages/Login/index.js:24-32 | throws the string error and shows `err.message` (undefined); an empty error string is falsy, so the page navigates | `Failure("Invalid login credentials")` shows the fallback; a provider refusal whose error has no message gives `Failure("")` and navigates to '/users' signed out | navigate only on success; otherwise show the session's message | not executed | `LoginPage.SilentRefusalNavigates` | `LoginPage.Report` |
| src/pages/Profile/index.js:75 | shows `authError.message`, but the session's `error` is a string | any session error, e.g. 'Usuário não autenticado' | show the session's error string | not executed | `ProfilePage.AlertAsWritten` | `ProfilePage.Alert` |

=== FILE: auth_context.dfy ===
/** The session container (`AuthProvider`): the state `{user, profile, loading,
    error}` and the operations that reconcile the provider's identity with its
    profile row. Each operation maps the session, the table and the replies of
    the remote calls it makes to the next session, the next table, its answer
    and the calls it issued. */
module AuthContext {
  import opened Values
  import opened Records
  import opened Table
  import opened UserService
  import AuthService

  datatype Session = Session(user: Option<AuthUser>, profile: Option<Row>, loading: bool, error: Option<string>)

  /** `{ success: true }` or `{ success: false, error: message }`. */
  datatype Answer = Success | Failure(message: string)

  datatype Step = Step(session: Session, store: Store, answer: Answer, calls: seq<Call>)

  /** The state before the first check: nobody signed in, loading. */
  const Initial := Session(None, None, true, None)

  const NotAuthenticated := "Usuário não autenticado"
  const NoUserAfterRegister := "Falha ao obter dados do usuário após registro"
  const UnknownRegisterError := "Erro desconhecido durante o registro"
  /** The TypeError raised when login reads `data.user.id` of a null user. */
  const NullUserRead := "Cannot read properties of null (reading 'id')"

  /** `isAuthenticated: !!user` */
  predicate IsAuthenticated(s: Session) {
    s.user.Some?
  }

  /** The catch and finally of an operation: the message recorded, loading off. */
  function Failed(user: Option<AuthUser>, profile: Option<Row>, message: string, store: Store, calls: seq<Call>): Step {
    Step(Session(user, profile, false, Some(message)), store, Failure(message), calls)
  }

  /** The end of an operation that succeeded: no error, loading off. */
  function Succeeded(user: Option<AuthUser>, profile: Option<Row>, store: Store, calls: seq<Call>): Step {
    Step(Session(user, profile, false, None), store, Success, calls)
  }

  /** What every operation leaves behind: loading off, and an error recorded
      exactly when it failed, with the message it answered. */
  predicate Settled(st: Step) {
    && !st.session.loading
    && (st.answer.Success? <==> st.session.error.None?)
    && (st.answer.Failure? ==> st.session.error == Some(st.answer.message))
  }

  /** The session's profile, if any, belongs to the session's user. */
  predicate Linked(s: Session) {
    s.profile.Some? ==> s.user.Some? && s.profile.value.id == Val(s.user.value.id)
  }

  /** The replies a profile fetch gets when the provider reports `u` as signed in
      and the query goes through. */
  function Faithful(u: AuthUser): Fetch {
    Fetch(SignedIn(Some(u)), None)
  }

  // ---------------------------------------------------------------- login

  datatype LoginReplies = LoginReplies(
    auth: AuthService.LoginReplies,
    fetch: Fetch,
    insertFault: Option<Error>,
    refetch: Fetch)

  /** The profile login creates for an identity that has none. */
  function SelfHealRow(u: AuthUser): Row {
    Row(Val(u.id), Val(FieldOr(u.metaNome, "")), Null, Val(""), Val(u.email), Undefined)
  }

  /** `login(email, password)`. */
  function Login(s: Session, store: Store, email: string, password: string, w: LoginReplies): (r: Step)
    ensures Settled(r)
    ensures Inserts(r.calls) <= 1
  {
    var g := AuthService.Login(email, password, w.auth);
    NoInserts(g.calls);
    match g.result
    case Err(e) => Failed(s.user, s.profile, e.message, store, g.calls)
    case Ok(user) =>
      ResolveInserts(s, store, user, w, g.calls);
      ResolveProfile(s, store, user, w, g.calls)
  }

  /** Login after the provider accepted: the user is set first, then the profile
      is fetched, created once if missing, and fetched once more. */
  function ResolveProfile(s: Session, store: Store, user: Option<AuthUser>, w: LoginReplies, calls: seq<Call>)
    : (r: Step)
    ensures Settled(r)
    ensures r.session.user == user
    ensures r.answer.Failure? ==> r.session.profile == s.profile
    ensures r.store == store || (user.Some? && r.store == store[user.value.id := Stored(SelfHealRow(user.value))])
    // each step that throws ends the login with that error's message
    ensures var f := GetCurrentUserProfile(store, w.fetch);
      && (f.result.Err? ==> r.answer == Failure(f.result.error.message) && r.store == store)
      && (f.result.Ok? && f.result.value.Some? ==>
            r.answer == Success && r.session.profile == f.result.value && r.store == store)
      && (f.result == Ok(None) && user.None? ==> r.answer == Failure(NullUserRead) && r.store == store)
    ensures GetCurrentUserProfile(store, w.fetch).result == Ok(None) && user.Some? ==>
      var c := CreateUserProfile(store, SelfHealRow(user.value), w.insertFault);
      var f2 := GetCurrentUserProfile(c.store, w.refetch);
      && (c.result.Fail? ==> r.answer == Failure(c.result.error.message) && r.store == store)
      && (c.result.Pass? ==> r.store == c.store)
      && (c.result.Pass? && f2.result.Err? ==> r.answer == Failure(f2.result.error.message))
      && (c.result.Pass? && f2.result.Ok? ==> r.answer == Success && r.session.profile == f2.result.value)
  {
    var f := GetCurrentUserProfile(store, w.fetch);
    var calls1 := calls + f.calls;
    match f.result
    case Err(e) => Failed(user, s.profile, e.message, store, calls1)
    case Ok(Some(p)) => Succeeded(user, Some(p), store, calls1)
    case Ok(None) =>
      match user
      case None => Failed(user, s.profile, NullUserRead, store, calls1)
      case Some(u) =>
        var c := CreateUserProfile(store, SelfHealRow(u), w.insertFault);
        var calls2 := calls1 + c.calls;
        if c.result.Fail? then Failed(user, s.profile, c.result.error.message, store, calls2)
        else
          var f2 := GetCurrentUserProfile(c.store, w.refetch);
          match f2.result
          case Err(e) => Failed(user, s.profile, e.message, c.store, calls2 + f2.calls)
          case Ok(p) => Succeeded(user, p, c.store, calls2 + f2.calls)
  }

  /** Resolving the profile adds at most one insert to the calls before it. */
  lemma ResolveInserts(s: Session, store: Store, user: Option<AuthUser>, w: LoginReplies, calls: seq<Call>)
    ensures Inserts(ResolveProfile(s, store, user, w, calls).calls) <= Inserts(calls) + 1
  {
    var r := ResolveProfile(s, store, user, w, calls);
    var f := GetCurrentUserProfile(store, w.fetch);
    NoInserts(f.calls);
    InsertsAppend(calls, f.calls);
    if f.result == Ok(None) && user.Some? {
      var c := CreateUserProfile(store, SelfHealRow(user.value), w.insertFault);
      var prefix := calls + f.calls + c.calls;
      InsertsAppend(calls + f.calls, c.calls);
      if c.result.Pass? {
        var f2 := GetCurrentUserProfile(c.store, w.refetch);
        NoInserts(f2.calls);
        InsertsAppend(prefix, f2.calls);
        assert r.calls == prefix + f2.calls;
      } else {
        assert r.calls == prefix;
      }
    } else {
      assert r.calls == calls + f.calls;
    }
  }

  /** A refused sign-in changes neither user, profile nor table, and records the
      provider's message. */
  lemma LoginRejected(s: Session, store: Store, email: string, password: string, w: LoginReplies, e: Error)
    requires AuthService.Login(email, password, w.auth).result == Err(e)
    ensures var r := Login(s, store, email, password, w);
      && r.session == Session(s.user, s.profile, false, Some(e.message))
      && r.answer == Failure(e.message)
      && r.store == store
      && Inserts(r.calls) == 0
  {
    NoInserts(AuthService.Login(email, password, w.auth).calls);
  }

  /** The user is set before the profile is fetched: a failing fetch leaves the
      new user next to the old profile. */
  lemma LoginFetchFailure(s: Session, store: Store, email: string, password: string, w: LoginReplies,
                          u: Option<AuthUser>, e: Error)
    requires AuthService.Login(email, password, w.auth).result == Ok(u)
    requires GetCurrentUserProfile(store, w.fetch).result == Err(e)
    ensures var r := Login(s, store, email, password, w);
      && r.session == Session(u, s.profile, false, Some(e.message))
      && r.answer == Failure(e.message)
      && r.store == store
  {
  }

  /** A missing profile is created exactly once, from the provider's user: its id,
      its metadata name or '', no age, an empty description and the provider's
      (normalised) address; the session then holds whatever the single re-fetch
      returns, even nothing. */
  lemma LoginSelfHeal(s: Session, store: Store, email: string, password: string, w: LoginReplies, u: AuthUser)
    requires AuthService.Login(email, password, w.auth).result == Ok(Some(u))
    requires GetCurrentUserProfile(store, w.fetch).result == Ok(None)
    ensures var r := Login(s, store, email, password, w);
      && Inserts(r.calls) == 1
      && InsertRow(SelfHealRow(u)) in r.calls
      && SelfHealRow(u).id == Val(u.id) && SelfHealRow(u).idade == Null && SelfHealRow(u).descricao == Val("")
      && SelfHealRow(u).email == Val(u.email)
      && SelfHealRow(u).nome == (if u.metaNome.Val? then Val(u.metaNome.value) else Val(""))
      && (u.id !in store && w.insertFault.None? ==>
            var healed := store[u.id := Stored(SelfHealRow(u))];
            && r.store == healed
            && (GetCurrentUserProfile(healed, w.refetch).result.Ok? ==>
                  r.answer == Success && r.session.profile == GetCurrentUserProfile(healed, w.refetch).result.value))
  {
    var g := AuthService.Login(email, password, w.auth);
    NoInserts(g.calls);
    ResolveSelfHeal(s, store, u, w, g.calls);
  }

  lemma ResolveSelfHeal(s: Session, store: Store, u: AuthUser, w: LoginReplies, calls: seq<Call>)
    requires Inserts(calls) == 0
    requires GetCurrentUserProfile(store, w.fetch).result == Ok(None)
    ensures var r := ResolveProfile(s, store, Some(u), w, calls);
      && Inserts(r.calls) == 1
      && InsertRow(SelfHealRow(u)) in r.calls
      && (u.id !in store && w.insertFault.None? ==>
            var healed := store[u.id := Stored(SelfHealRow(u))];
            && r.store == healed
            && (GetCurrentUserProfile(healed, w.refetch).result.Ok? ==>
                  r.answer == Success && r.session.profile == GetCurrentUserProfile(healed, w.refetch).result.value))
  {
    var f := GetCurrentUserProfile(store, w.fetch);
    var c := CreateUserProfile(store, SelfHealRow(u), w.insertFault);
    var prefix := calls + f.calls + c.calls;
    SelfHealPrefix(calls, f.calls, c.calls, SelfHealRow(u));
    if c.result.Pass? {
      var f2 := GetCurrentUserProfile(c.store, w.refetch);
      NoInserts(f2.calls);
      InsertsAppend(prefix, f2.calls);
      assert prefix[|calls + f.calls|] == (prefix + f2.calls)[|calls + f.calls|];
      var r := ResolveProfile(s, store, Some(u), w, calls);
      assert r.calls == prefix + f2.calls;
      if u.id !in store && w.insertFault.None? {
        assert c.store == store[u.id := Stored(SelfHealRow(u))];
      }
    } else {
      var r := ResolveProfile(s, store, Some(u), w, calls);
      assert r.calls == prefix;
    }
  }

  /** The calls of login up to its insert hold exactly that insert. */
  lemma SelfHealPrefix(calls: seq<Call>, fetched: seq<Call>, inserted: seq<Call>, row: Row)
    requires Inserts(calls) == 0 && forall c :: c in fetched ==> !c.InsertRow?
    requires inserted == [InsertRow(ProfilePayload(row))] && ProfilePayload(row) == row
    ensures Inserts(calls + fetched + inserted) == 1
    ensures (calls + fetched + inserted)[|calls + fetched|] == InsertRow(row)
  {
    NoInserts(fetched);
    InsertsAppend(calls, fetched);
    InsertsAppend(calls + fetched, inserted);
  }

  /** When the profile exists, login creates nothing and leaves the table alone. */
  lemma LoginFindsProfile(s: Session, store: Store, email: string, password: string, w: LoginReplies,
                          u: Option<AuthUser>, p: Row)
    requires AuthService.Login(email, password, w.auth).result == Ok(u)
    requires GetCurrentUserProfile(store, w.fetch).result == Ok(Some(p))
    ensures var r := Login(s, store, email, password, w);
      && Inserts(r.calls) == 0 && r.store == store
      && r.answer == Success && r.session.profile == Some(p) && r.session.user == u
  {
    var g := AuthService.Login(email, password, w.auth);
    NoInserts(g.calls);
    ResolveFinds(s, store, u, w, g.calls, p);
  }

  lemma ResolveFinds(s: Session, store: Store, u: Option<AuthUser>, w: LoginReplies, calls: seq<Call>, p: Row)
    requires Inserts(calls) == 0
    requires GetCurrentUserProfile(store, w.fetch).result == Ok(Some(p))
    ensures var r := ResolveProfile(s, store, u, w, calls);
      && Inserts(r.calls) == 0 && r.store == store
      && r.answer == Success && r.session.profile == Some(p) && r.session.user == u
  {
    var f := GetCurrentUserProfile(store, w.fetch);
    NoInserts(f.calls);
    InsertsAppend(calls, f.calls);
  }

  /** With the provider reporting the accepted user and the table reachable, a
      successful login leaves a profile row for that user, and the session's
      profile is that row. */
  lemma LoginLinks(s: Session, store: Store, email: string, password: string, w: LoginReplies, u: AuthUser)
    requires AuthService.Login(email, password, w.auth).result == Ok(Some(u))
    requires w.fetch == Faithful(u) && w.refetch == Faithful(u)
    ensures var r := Login(s, store, email, password, w);
      r.answer == Success ==>
        (Linked(r.session) && r.session.profile.Some? && u.id in r.store
         && r.session.profile.value == r.store[u.id])
  {
  }

  /** Logging in twice with the same credentials: the second login creates no
      row and ends with the same profile as the first. */
  lemma LoginTwice(s: Session, store: Store, email: string, password: string, w: LoginReplies, u: AuthUser)
    requires AuthService.Login(email, password, w.auth).result == Ok(Some(u))
    requires w.fetch == Faithful(u) && w.refetch == Faithful(u)
    requires Login(s, store, email, password, w).answer == Success
    ensures var first := Login(s, store, email, password, w);
      var second := Login(first.session, first.store, email, password, w);
      && Inserts(second.calls) == 0
      && second.store == first.store
      && second.answer == Success
      && second.session == first.session
  {
    var first := Login(s, store, email, password, w);
    LoginLinks(s, store, email, password, w, u);
    LoginFindsProfile(first.session, first.store, email, password, w, Some(u), first.store[u.id]);
  }

  // ---------------------------------------------------------------- register

  datatype RegisterReplies = RegisterReplies(
    auth: AuthService.RegisterReplies,
    fetch: Fetch,
    insertFault: Option<Error>,
    refetch: Fetch)

  /** `register(email, password, userData)`. */
  function Register(s: Session, store: Store, email: string, password: string, data: Attributes, w: RegisterReplies)
    : (r: Step)
    ensures Settled(r)
    // every failure is reported with a message
    ensures r.answer.Failure? ==> r.answer.message != ""
  {
    var g := AuthService.Register(store, email, password, data, w.auth);
    match g.result
    case Err(e) => Failed(s.user, s.profile, Or(e.message, UnknownRegisterError), g.store, g.calls)
    case Ok(user) => AfterRegister(s, g.store, email, data, user, w, g.calls)
  }

  /** Register once the gateway has answered with `user`: set the user, fetch the
      profile, and insert it by hand only if that fetch failed. */
  function AfterRegister(s: Session, store: Store, email: string, data: Attributes, user: Option<AuthUser>,
                         w: RegisterReplies, calls: seq<Call>): (r: Step)
    ensures Settled(r)
    ensures r.answer.Failure? ==> r.answer.message != ""
    ensures user.None? ==>
      r == Failed(s.user, s.profile, NoUserAfterRegister, store, calls)
    ensures user.Some? ==> r.session.user == user
    ensures r.answer.Failure? ==> r.session.profile == s.profile
    // a fetch that answers without error decides the profile, even when it is null
    ensures user.Some? && GetCurrentUserProfile(store, w.fetch).result.Ok? ==>
      && r.answer == Success && r.store == store
      && r.session.profile == GetCurrentUserProfile(store, w.fetch).result.value
      && r.calls == calls + GetCurrentUserProfile(store, w.fetch).calls
    // the hand-made insert follows only a failed fetch
    // a refused insert or re-fetch is reported with its own message, or the fallback
    ensures user.Some? && GetCurrentUserProfile(store, w.fetch).result.Err? ==>
      var ins := Insert(store, AuthService.RegistrationRow(user.value.id, email, data), w.insertFault);
      var f2 := GetCurrentUserProfile(ins.store, w.refetch);
      && (ins.result.Fail? ==>
            r.answer == Failure(Or(ins.result.error.message, UnknownRegisterError)) && r.store == store)
      && (ins.result.Pass? && f2.result.Err? ==>
            r.answer == Failure(Or(f2.result.error.message, UnknownRegisterError)) && r.store == ins.store)
      && (ins.result.Pass? && f2.result.Ok? ==>
            r.answer == Success && r.store == ins.store && r.session.profile == f2.result.value)
    ensures user.Some? && GetCurrentUserProfile(store, w.fetch).result.Err? ==>
      |r.calls| >= |calls| + |GetCurrentUserProfile(store, w.fetch).calls| + 1 &&
      r.calls[..|calls| + |GetCurrentUserProfile(store, w.fetch).calls| + 1] ==
        calls + GetCurrentUserProfile(store, w.fetch).calls
          + [InsertRow(AuthService.RegistrationRow(user.value.id, email, data))]
  {
    match user
    case None => Failed(s.user, s.profile, NoUserAfterRegister, store, calls)
    case Some(u) =>
      var f := GetCurrentUserProfile(store, w.fetch);
      var calls1 := calls + f.calls;
      match f.result
      case Ok(p) => Succeeded(user, p, store, calls1)
      case Err(_) =>
        var ins := Insert(store, AuthService.RegistrationRow(u.id, email, data), w.insertFault);
        var calls2 := calls1 + ins.calls;
        assert calls2[..|calls1| + 1] == calls2;
        if ins.result.Fail? then
          Failed(user, s.profile, Or(ins.result.error.message, UnknownRegisterError), store, calls2)
        else
          var f2 := GetCurrentUserProfile(ins.store, w.refetch);
          assert (calls2 + f2.calls)[..|calls2|] == calls2;
          match f2.result
          case Err(e) => Failed(user, s.profile, Or(e.message, UnknownRegisterError), ins.store, calls2 + f2.calls)
          case Ok(p) => Succeeded(user, p, ins.store, calls2 + f2.calls)
  }

  /** Whatever path the gateway took to an identity `u`, a registration whose
      profile fetch reaches the table for `u` succeeds and is linked: it holds
      `u`'s row exactly when the table has one. */
  lemma RegisterLinks(s: Session, store: Store, email: string, password: string, data: Attributes,
                      w: RegisterReplies, u: AuthUser)
    requires AuthService.Register(store, email, password, data, w.auth).result == Ok(Some(u))
    requires w.fetch == Faithful(u)
    ensures var r := Register(s, store, email, password, data, w);
      && r.answer == Success && r.session.error.None? && IsAuthenticated(r.session) && Linked(r.session)
      && r.store == AuthService.Register(store, email, password, data, w.auth).store
      && (r.session.profile.Some? <==> u.id in r.store)
      && (u.id in r.store ==> r.session.profile == Some(r.store[u.id]))
  {
  }

  /** A failed registration leaves user and profile as they were. */
  lemma RegisterRejected(s: Session, store: Store, email: string, password: string, data: Attributes,
                         w: RegisterReplies, e: Error)
    requires AuthService.Register(store, email, password, data, w.auth).result == Err(e)
    ensures var r := Register(s, store, email, password, data, w);
      && r.session == Session(s.user, s.profile, false, Some(Or(e.message, UnknownRegisterError)))
      && r.answer == Failure(Or(e.message, UnknownRegisterError))
      && r.store == store
  {
  }

  /** The gateway's success always names a user, so the hand-made insert is only
      ever tried for an id the gateway has just inserted: with a reachable table
      it fails on the primary key, and registration fails. */
  lemma ManualInsertConflicts(s: Session, store: Store, email: string, password: string, data: Attributes,
                              w: RegisterReplies, u: AuthUser, e: Error)
    requires AuthService.Register(store, email, password, data, w.auth).result == Ok(Some(u))
    requires GetCurrentUserProfile(AuthService.Register(store, email, password, data, w.auth).store, w.fetch).result == Err(e)
    requires w.insertFault.None?
    ensures var r := Register(s, store, email, password, data, w);
      && r.answer == Failure(DuplicateKey.message)
      && r.store == AuthService.Register(store, email, password, data, w.auth).store
      && r.session.user == Some(u) && r.session.profile == s.profile
  {
  }

  /** Registering "alice" with age 30: the provider gets "alice@exemplo.com",
      the row keeps "alice", its id is the new identity's, and the session holds
      that row. */
  lemma RegisterAlice(s: Session, store: Store, w: RegisterReplies, u: AuthUser)
    requires w.auth.admin == Granted(Some(u)) && w.auth.signIn == Granted(Some(u))
    requires w.auth.insertFault.None? && u.id !in store
    requires w.fetch == Faithful(u)
    ensures var r := Register(s, store, "alice", "pw123456", Attributes(Val("Alice"), Val(30), Undefined), w);
      && r.answer == Success
      && SignIn("alice@exemplo.com", "pw123456") in r.calls
      && u.id in r.store
      && r.store[u.id].id == Val(u.id) && r.store[u.id].email == Val("alice")
      && r.store[u.id].idade == Val(30) && r.store[u.id].nome == Val("Alice")
      && r.session.user == Some(u) && r.session.profile == Some(r.store[u.id])
  {
    var data := Attributes(Val("Alice"), Val(30), Undefined);
    AuthService.NormalizeAlice();
    AuthService.RegisterSignsInSecond(store, "alice", "pw123456", data, w.auth);
    AuthService.RegisterSucceeds(store, "alice", "pw123456", data, w.auth, u);
    var g := AuthService.Register(store, "alice", "pw123456", data, w.auth);
    var row := Stored(AuthService.RegistrationRow(u.id, "alice", data));
    assert g.store == store[u.id := row];
    var f := GetCurrentUserProfile(g.store, w.fetch);
    assert f.result == Ok(Some(row));
    var r := AfterRegister(s, g.store, "alice", data, Some(u), w, g.calls);
    assert r.calls == g.calls + f.calls;
    assert r.store == g.store && r.session.profile == Some(row);
  }

  // ---------------------------------------------------------------- logout, update, delete

  /** `logout()`. */
  function Logout(s: Session, store: Store, signOut: Option<Error>): (r: Step)
    ensures Settled(r) && r.store == store && r.calls == [SignOut]
    ensures signOut.None? ==> r.answer == Success && r.session.user.None? && r.session.profile.None?
    ensures signOut.Some? ==>
      r.answer == Failure(signOut.value.message) && r.session.user == s.user && r.session.profile == s.profile
  {
    var g := AuthService.Logout(signOut);
    match g.result
    case Fail(e) => Failed(s.user, s.profile, e.message, store, g.calls)
    case Pass => Succeeded(None, None, store, g.calls)
  }

  /** The container's logout answers as the gateway's does, and a successful one
      leaves the same session the start-up check builds when nobody is signed in. */
  lemma LogoutThenRestore(s: Session, store: Store, signOut: Option<Error>, fetch: Fetch)
    ensures var r := Logout(s, store, signOut);
      && (r.answer.Success? <==> AuthService.Logout(signOut).result.Pass?)
      && (r.answer.Failure? ==> r.answer.message == AuthService.Logout(signOut).result.error.message)
      && (r.answer.Success? ==> r.session == Restore(store, SignedIn(None), fetch).result)
  {
  }

  /** `isAuthenticated` follows the provider: a login it accepts signs the user
      in even when the profile step then fails, a logout it accepts signs out,
      and a deletion signs out exactly when the profile row was deleted. */
  lemma AuthenticationTracksProvider(s: Session, store: Store, email: string, password: string,
                                     w: LoginReplies, u: AuthUser, signOut: Option<Error>,
                                     rowFault: Option<Error>, authFault: Option<Error>)
    requires AuthService.Login(email, password, w.auth).result == Ok(Some(u))
    ensures var r := Login(s, store, email, password, w);
      IsAuthenticated(r.session) && r.session.user == Some(u)
    ensures IsAuthenticated(Logout(s, store, signOut).session) <==> signOut.Some? && IsAuthenticated(s)
    ensures IsAuthenticated(DeleteAccount(s, store, rowFault, authFault).session) <==>
      IsAuthenticated(s) && rowFault.Some?
  {
    var g := AuthService.Login(email, password, w.auth);
    assert Login(s, store, email, password, w) == ResolveProfile(s, store, Some(u), w, g.calls);
  }

  /** `updateProfile(userData)`, stamped with the clock reading `now`. */
  function UpdateProfile(s: Session, store: Store, a: Attributes, now: int, fault: Option<Error>, fetch: Fetch)
    : (r: Step)
    ensures Settled(r) && r.session.user == s.user
    // without a user nothing is called
    ensures s.user.None? ==> r == Failed(None, s.profile, NotAuthenticated, store, [])
    ensures s.user.Some? ==> |r.calls| > 0 && r.calls[0] == UpdateRow(Val(s.user.value.id), a)
    // it succeeds exactly when the update and the re-fetch both answer without
    // error, and otherwise fails with the message of the one that did not
    ensures s.user.Some? ==>
      var updated := UpdateUserProfile(store, Val(s.user.value.id), a, now, None).store;
      var f := GetCurrentUserProfile(updated, fetch);
      && (r.answer.Success? <==> fault.None? && f.result.Ok?)
      && (fault.Some? ==> r.answer == Failure(fault.value.message) && r.store == store)
      && (fault.None? && f.result.Err? ==> r.answer == Failure(f.result.error.message) && r.store == updated)
    ensures r.answer.Failure? ==> r.session.profile == s.profile
    // success shows the re-fetched row, not the update's echo
    ensures r.answer.Success? ==>
      (s.user.Some? && fault.None? &&
       var updated := UpdateUserProfile(store, Val(s.user.value.id), a, now, None).store;
       && r.store == updated
       && GetCurrentUserProfile(updated, fetch).result.Ok?
       && r.session.profile == GetCurrentUserProfile(updated, fetch).result.value)
  {
    match s.user
    case None => Failed(None, s.profile, NotAuthenticated, store, [])
    case Some(u) =>
      var up := UpdateUserProfile(store, Val(u.id), a, now, fault);
      if up.result.Fail? then Failed(s.user, s.profile, up.result.error.message, store, up.calls)
      else
        var f := GetCurrentUserProfile(up.store, fetch);
        match f.result
        case Err(e) => Failed(s.user, s.profile, e.message, up.store, up.calls + f.calls)
        case Ok(p) => Succeeded(s.user, p, up.store, up.calls + f.calls)
  }

  /** An update of a linked session whose re-fetch reaches the table keeps it linked. */
  lemma UpdateKeepsLinked(s: Session, store: Store, a: Attributes, now: int, fault: Option<Error>, u: AuthUser)
    requires s.user == Some(u) && Linked(s)
    ensures Linked(UpdateProfile(s, store, a, now, fault, Faithful(u)).session)
  {
  }

  /** `deleteAccount()`. */
  function DeleteAccount(s: Session, store: Store, rowFault: Option<Error>, authFault: Option<Error>): (r: Step)
    ensures Settled(r)
    ensures s.user.None? ==> r == Failed(None, s.profile, NotAuthenticated, store, [])
    ensures r.answer.Success? <==> s.user.Some? && rowFault.None?
    ensures s.user.Some? && rowFault.Some? ==> r.answer == Failure(rowFault.value.message)
    ensures r.answer.Success? ==>
      && r.session.user.None? && r.session.profile.None?
      && s.user.value.id !in r.store
      && forall k :: k in store && k != s.user.value.id ==> k in r.store && r.store[k] == store[k]
    ensures r.answer.Failure? ==> r.session.user == s.user && r.session.profile == s.profile && r.store == store
  {
    match s.user
    case None => Failed(None, s.profile, NotAuthenticated, store, [])
    case Some(u) =>
      var d := DeleteUserAccount(store, Val(u.id), rowFault, authFault);
      if d.result.Fail? then Failed(s.user, s.profile, d.result.error.message, store, d.calls)
      else Succeeded(None, None, d.store, d.calls)
  }

  /** After a deletion the identity may survive (a refused identity deletion only
      signs out), but its profile row is gone: the next profile fetch for it finds
      nothing, which a later login answers by creating a fresh row. */
  lemma DeletedProfileGone(s: Session, store: Store, u: AuthUser, authFault: Option<Error>)
    requires s.user == Some(u)
    ensures var r := DeleteAccount(s, store, None, authFault);
      && r.answer == Success
      && GetCurrentUserProfile(r.store, Faithful(u)).result == Ok(None)
  {
  }

  // ---------------------------------------------------------------- start-up

  /** The start-up check: the current user, then that user's profile. */
  function Restore(store: Store, lookup: UserLookup, fetch: Fetch): (r: Traced<Session>)
    ensures !r.result.loading
    ensures lookup.LookupFailed? ==> r.result == Session(None, None, false, Some(lookup.error.message))
    ensures lookup == SignedIn(None) ==> r.result == Session(None, None, false, None)
    ensures lookup.SignedIn? && lookup.user.Some? ==>
      && r.result.user == lookup.user
      && (r.result.error.None? <==> GetCurrentUserProfile(store, fetch).result.Ok?)
      && (r.result.error.None? ==> r.result.profile == GetCurrentUserProfile(store, fetch).result.value)
    // a failed profile fetch is thrown: the user stays set, the profile null
    ensures lookup.SignedIn? && lookup.user.Some? && GetCurrentUserProfile(store, fetch).result.Err? ==>
      r.result == Session(lookup.user, None, false, Some(GetCurrentUserProfile(store, fetch).result.error.message))
  {
    var g := AuthService.GetCurrentUser(lookup);
    match g.result
    case Err(e) => Traced(Initial.(loading := false, error := Some(e.message)), g.calls)
    case Ok(None) => Traced(Initial.(loading := false), g.calls)
    case Ok(Some(u)) =>
      var f := GetCurrentUserProfile(store, fetch);
      match f.result
      case Err(e) => Traced(Session(Some(u), None, false, Some(e.message)), g.calls + f.calls)
      case Ok(p) => Traced(Session(Some(u), p, false, None), g.calls + f.calls)
  }

  /** The start-up check takes its user from the gateway's `getCurrentUser`: the
      restored session is signed in exactly when the gateway reports a user, and
      a refused lookup is recorded with the gateway's error. */
  lemma RestoreFollowsGateway(store: Store, lookup: UserLookup, fetch: Fetch)
    ensures var g := AuthService.GetCurrentUser(lookup);
      var r := Restore(store, lookup, fetch);
      && r.calls[..1] == g.calls
      && (g.result.Ok? ==> r.result.user == g.result.value)
      && (g.result.Err? ==> !IsAuthenticated(r.result) && r.result.error == Some(g.result.error.message))
  {
  }

  /** A restored session whose fetch reaches the table for the reported user is
      linked, and holds that user's row when there is one. */
  lemma RestoreLinks(store: Store, u: AuthUser)
    ensures var r := Restore(store, SignedIn(Some(u)), Faithful(u)).result;
      && IsAuthenticated(r) && r.error.None? && Linked(r)
      && (r.profile.Some? <==> u.id in store)
      && (u.id in store ==> r.profile == Some(store[u.id]))
  {
  }
}

=== FILE: auth_service.dfy ===
/** The auth gateway (`authService`): address normalisation, the registration
    fallback chain, sign-in with one confirm-and-retry, sign-out, current user
    and password reset. Every operation answers with a result record and never
    throws; the provider's answers are parameters. */
module AuthService {
  import opened Values
  import opened Records
  import opened Table
  import opened Strings

  /** Domain appended to a bare handle, and top-level domain appended to a
      domain without a dot. */
  const DefaultDomain := "exemplo.com"
  const DefaultTld := ".com"

  const RegistrationFailed := "Falha no registro de usuário"
  const NotConfirmed := "Email not confirmed"

  /** The address sent to the provider for what the user typed: a handle without
      '@' gets the default domain, and an address with one '@' whose domain has
      no dot gets the default top-level domain. */
  function NormalizeEmail(email: string): (r: string)
    ensures '@' !in email ==> r == email + "@" + DefaultDomain
    ensures '@' in email && Count(email, '@') == 1 && '.' !in After(email, '@') ==>
      r == Before(email, '@') + "@" + After(email, '@') + DefaultTld
    ensures '@' in email && (Count(email, '@') > 1 || '.' in After(email, '@')) ==> r == email
  {
    if '@' !in email then email + "@" + DefaultDomain
    else
      var parts := Split(email, '@');
      CountZero(email, '@');
      if Count(email, '@') == 1 then
        SplitOnce(email, '@');
        if '.' !in parts[1] then parts[0] + "@" + parts[1] + DefaultTld else email
      else
        email
  }

  /** The normalised address always holds an '@'. */
  lemma NormalizedHasAt(email: string)
    ensures '@' in NormalizeEmail(email)
  {
    var r := NormalizeEmail(email);
    if '@' !in email {
      assert r[|email|] == '@';
    } else if Count(email, '@') == 1 && '.' !in After(email, '@') {
      assert r[|Before(email, '@')|] == '@';
    }
  }

  /** `a + "@" + b` has exactly one '@' and `b` after it, when neither part has one. */
  lemma {:induction false} JoinedAt(a: string, b: string)
    requires '@' !in a && '@' !in b
    ensures '@' in a + "@" + b
    ensures Count(a + "@" + b, '@') == 1
    ensures After(a + "@" + b, '@') == b
  {
    CountZero(a, '@');
    CountZero(b, '@');
    CountAppend(a, "@", '@');
    CountAppend(a + "@", b, '@');
    assert a + "@" + b == a + ['@'] + b;
    FirstOccurrence(a, '@', b);
  }

  /** Normalising a normalised address changes nothing. */
  lemma NormalizeIdempotent(email: string)
    ensures NormalizeEmail(NormalizeEmail(email)) == NormalizeEmail(email)
  {
    if '@' !in email {
      HandleIdempotent(email);
    } else if Count(email, '@') == 1 && '.' !in After(email, '@') {
      DomainIdempotent(email);
    }
  }

  /** A handle gets the default domain, which already has a dot. */
  lemma HandleIdempotent(email: string)
    requires '@' !in email
    ensures NormalizeEmail(NormalizeEmail(email)) == NormalizeEmail(email)
  {
    assert '@' !in DefaultDomain && DefaultDomain[7] == '.';
    JoinedAt(email, DefaultDomain);
  }

  /** An address with one '@' is its two parts around it, neither holding one. */
  lemma AtParts(email: string)
    requires '@' in email && Count(email, '@') == 1
    ensures email == Before(email, '@') + "@" + After(email, '@')
    ensures '@' !in Before(email, '@') && '@' !in After(email, '@')
  {
    var a, b := Before(email, '@'), After(email, '@');
    assert email == a + ['@'] + b;
    CountAppend(a + ['@'], b, '@');
    CountAppend(a, ['@'], '@');
    CountZero(a, '@');
    CountZero(b, '@');
  }

  /** A domain without a dot gets the default top-level domain, which has one. */
  lemma DomainIdempotent(email: string)
    requires '@' in email && Count(email, '@') == 1 && '.' !in After(email, '@')
    ensures NormalizeEmail(NormalizeEmail(email)) == NormalizeEmail(email)
  {
    var a, b := Before(email, '@'), After(email, '@');
    AtParts(email);
    var b' := b + DefaultTld;
    assert '.' in b' by {
      assert b'[|b|] == '.';
    }
    assert '@' !in b' by {
      assert '@' !in DefaultTld;
    }
    var r := a + "@" + b';
    assert NormalizeEmail(email) == r;
    JoinedAt(a, b');
  }

  /** The replies the provider and the table give during one registration. */
  datatype RegisterReplies = RegisterReplies(
    admin: AuthReply,          // auth.admin.createUser
    signUp: Option<Error>,     // auth.signUp (its data is never read)
    confirm: Option<Error>,    // rpc('confirm_user_email')
    signIn: AuthReply,         // auth.signInWithPassword
    insertFault: Option<Error>)

  /** The profile row registration inserts: the new id, the given attributes and
      the address exactly as the user typed it. */
  function RegistrationRow(id: string, email: string, data: Attributes): Row {
    Row(Val(id), data.nome, data.idade, data.descricao, Val(email), Undefined)
  }

  /** createUser, then signUp, then the confirm RPC: the calls issued and the
      error that ends registration when all three fail. */
  function Provision(address: string, password: string, meta: Metadata, w: RegisterReplies): (r: Traced<Option<Error>>)
    ensures forall c :: c in r.calls ==>
      c == AdminCreateUser(address, password, meta) || c == SignUp(address, password, meta) || c == ConfirmEmail(address)
    ensures |r.calls| > 0 && r.calls[0] == AdminCreateUser(address, password, meta)
    ensures r.result.Some? <==> w.admin.Denied? && w.signUp.Some? && w.confirm.Some?
    ensures r.result.Some? ==> r.result == w.signUp
    // the fallback chain: signUp only after a refused createUser, and the
    // confirm RPC only after a refused signUp, each as the next call
    ensures w.admin.Granted? ==> r.calls == [AdminCreateUser(address, password, meta)]
    ensures SignUp(address, password, meta) in r.calls <==> w.admin.Denied?
    ensures w.admin.Denied? ==> |r.calls| >= 2 && r.calls[1] == SignUp(address, password, meta)
    ensures ConfirmEmail(address) in r.calls <==> w.admin.Denied? && w.signUp.Some?
    ensures ConfirmEmail(address) in r.calls ==> |r.calls| == 3 && r.calls[2] == ConfirmEmail(address)
  {
    var admin := AdminCreateUser(address, password, meta);
    if w.admin.Granted? then Traced(None, [admin])
    else if w.signUp.None? then Traced(None, [admin, SignUp(address, password, meta)])
    else
      var chain := [admin, SignUp(address, password, meta), ConfirmEmail(address)];
      if w.confirm.None? then Traced(None, chain) else Traced(w.signUp, chain)
  }

  /** Inserts the registration row for `u` after `calls` and answers with `u` on success. */
  function CreateProfile(store: Store, u: AuthUser, email: string, data: Attributes, fault: Option<Error>,
                         calls: seq<Call>): (r: Served<Result<Option<AuthUser>>>)
    ensures r.calls == calls + [InsertRow(RegistrationRow(u.id, email, data))]
    ensures r.result.Ok? ==>
      r.result == Ok(Some(u)) && u.id !in store && r.store == store[u.id := Stored(RegistrationRow(u.id, email, data))]
    ensures r.result.Err? ==> r.store == store
  {
    var ins := Insert(store, RegistrationRow(u.id, email, data), fault);
    Served(if ins.result.Pass? then Ok(Some(u)) else Err(ins.result.error), ins.store, calls + ins.calls)
  }

  /** The identity registration files its profile under once provisioning
      succeeded: the sign-in's user, else the one `createUser` answered. */
  function Registrant(w: RegisterReplies): Option<AuthUser> {
    if w.signIn.Granted? && w.signIn.user.Some? then w.signIn.user
    else if w.signIn.Granted? && w.admin.Granted? then w.admin.user
    else None
  }

  /** What registration may send for the typed `email`, normalised to
      `address`: provider calls carry the normalised address (and the typed one
      as metadata); the profile row keeps the typed address and the attributes. */
  predicate Sent(c: Call, address: string, email: string, data: Attributes) {
    match c
    case AdminCreateUser(e, _, meta) => e == address && meta == Metadata(data.nome, email)
    case SignUp(e, _, meta) => e == address && meta == Metadata(data.nome, email)
    case ConfirmEmail(e) => e == address
    case SignIn(e, _) => e == address
    case InsertRow(row) =>
      row.email == Val(email) && row.nome == data.nome && row.idade == data.idade && row.descricao == data.descricao
    case _ => false
  }

  /** `authService.register(email, password, userData)`. */
  function Register(store: Store, email: string, password: string, data: Attributes, w: RegisterReplies)
    : (r: Served<Result<Option<AuthUser>>>)
    ensures forall c :: c in r.calls ==> Sent(c, NormalizeEmail(email), email, data)
    // success means one new row, keyed by the answered user's id; failure changes no row
    ensures r.result.Ok? ==>
      && r.result.value.Some?
      && var u := r.result.value.value;
      && u.id !in store
      && r.store == store[u.id := Stored(RegistrationRow(u.id, email, data))]
    ensures r.result.Err? ==> r.store == store
    // the error that ends each step: exhausted provisioning, a refused sign-in,
    // a failed insert, or no identity to file the profile under
    ensures var p := Provision(NormalizeEmail(email), password, Metadata(data.nome, email), w);
      && (p.result.Some? ==> r.result == Err(p.result.value))
      && (p.result.None? && w.signIn.Denied? ==> r.result == Err(w.signIn.error))
      && (p.result.None? && w.signIn.Granted? && Registrant(w).None? ==> r.result == Err(Error(RegistrationFailed)))
      && (p.result.None? && Registrant(w).Some? ==>
            var u := Registrant(w).value;
            && (r.result == Ok(Some(u)) <==> w.insertFault.None? && u.id !in store)
            && (w.insertFault.Some? ==> r.result == Err(w.insertFault.value))
            && (w.insertFault.None? && u.id in store ==> r.result == Err(DuplicateKey)))
  {
    var address := NormalizeEmail(email);
    var p := Provision(address, password, Metadata(data.nome, email), w);
    if p.result.Some? then Served(Err(p.result.value), store, p.calls)
    else
      var calls := p.calls + [SignIn(address, password)];
      match w.signIn
      case Denied(e) => Served(Err(e), store, calls)
      case Granted(Some(u)) => CreateProfile(store, u, email, data, w.insertFault, calls)
      case Granted(None) =>
        if w.admin.Granted? && w.admin.user.Some? then
          CreateProfile(store, w.admin.user.value, email, data, w.insertFault, calls)
        else Served(Err(Error(RegistrationFailed)), store, calls)
  }

  /** With createUser granted, registration signs in right after it. */
  lemma RegisterSignsInSecond(store: Store, email: string, password: string, data: Attributes, w: RegisterReplies)
    requires w.admin.Granted?
    ensures var r := Register(store, email, password, data, w);
      |r.calls| >= 2 && r.calls[0] == AdminCreateUser(NormalizeEmail(email), password, Metadata(data.nome, email))
      && r.calls[1] == SignIn(NormalizeEmail(email), password)
  {
    var address := NormalizeEmail(email);
    var p := Provision(address, password, Metadata(data.nome, email), w);
    assert p.calls == [AdminCreateUser(address, password, Metadata(data.nome, email))];
    var calls := p.calls + [SignIn(address, password)];
    var r := Register(store, email, password, data, w);
    if w.signIn.Granted? && (w.signIn.user.Some? || w.admin.user.Some?) {
      var u := if w.signIn.user.Some? then w.signIn.user.value else w.admin.user.value;
      assert r.calls == calls + [InsertRow(RegistrationRow(u.id, email, data))];
    } else {
      assert r.calls == calls;
    }
  }

  /** Registration signs in at most once and inserts at most one row, and
      exactly one when it succeeds. */
  lemma RegisterCalls(store: Store, email: string, password: string, data: Attributes, w: RegisterReplies)
    ensures var r := Register(store, email, password, data, w);
      && SignIns(r.calls) <= 1 && Inserts(r.calls) <= 1
      && (r.result.Ok? ==> Inserts(r.calls) == 1)
  {
    var address := NormalizeEmail(email);
    var p := Provision(address, password, Metadata(data.nome, email), w);
    NoSignIns(p.calls);
    NoInserts(p.calls);
    var calls := p.calls + [SignIn(address, password)];
    SignInsAppend(p.calls, [SignIn(address, password)]);
    InsertsAppend(p.calls, [SignIn(address, password)]);
    var inserted := Registrant(w);
    if inserted.Some? {
      var row := InsertRow(RegistrationRow(inserted.value.id, email, data));
      SignInsAppend(calls, [row]);
      InsertsAppend(calls, [row]);
    }
  }

  /** When createUser, signUp and the confirm RPC all fail, registration answers
      with the signUp error without signing in. */
  lemma ProvisionExhausted(store: Store, email: string, password: string, data: Attributes, w: RegisterReplies)
    requires w.admin.Denied? && w.signUp.Some? && w.confirm.Some?
    ensures var r := Register(store, email, password, data, w);
      r.result == Err(w.signUp.value) && SignIns(r.calls) == 0 && r.store == store
  {
    var p := Provision(NormalizeEmail(email), password, Metadata(data.nome, email), w);
    NoSignIns(p.calls);
  }

  /** Whichever provisioning call created the identity, once provisioning
      succeeded and the sign-in (or `createUser`) names a user whose id is free
      in a reachable table, that user is registered with its profile row. */
  lemma RegisterSucceeds(store: Store, email: string, password: string, data: Attributes,
                         w: RegisterReplies, u: AuthUser)
    requires Provision(NormalizeEmail(email), password, Metadata(data.nome, email), w).result.None?
    requires Registrant(w) == Some(u) && w.insertFault.None? && u.id !in store
    ensures var r := Register(store, email, password, data, w);
      && r.result == Ok(Some(u))
      && r.store == store[u.id := Stored(RegistrationRow(u.id, email, data))]
  {
  }

  /** An identity created and signed in, whose profile insert then fails, still
      makes registration fail. */
  lemma InsertFailureFailsRegister(store: Store, email: string, password: string, data: Attributes,
                                   w: RegisterReplies, u: AuthUser, e: Error)
    requires w.admin.Granted? && w.signIn == Granted(Some(u)) && w.insertFault == Some(e)
    ensures var r := Register(store, email, password, data, w);
      && r.result == Err(e) && r.store == store
      && r.calls == [AdminCreateUser(NormalizeEmail(email), password, Metadata(data.nome, email)),
                     SignIn(NormalizeEmail(email), password),
                     InsertRow(RegistrationRow(u.id, email, data))]
  {
  }

  /** The replies the provider gives during one login. */
  datatype LoginReplies = LoginReplies(first: AuthReply, confirm: Option<Error>, retry: AuthReply)

  /** The first sign-in was refused because the address is unconfirmed. */
  predicate Unconfirmed(first: AuthReply) {
    first.Denied? && Contains(first.error.message, NotConfirmed)
  }

  /** The result record for a sign-in answer. */
  function Answered(reply: AuthReply): Result<Option<AuthUser>> {
    match reply
    case Granted(u) => Ok(u)
    case Denied(e) => Err(e)
  }

  /** `authService.login(email, password)`. */
  function Login(email: string, password: string, w: LoginReplies): (r: Traced<Result<Option<AuthUser>>>)
    ensures |r.calls| > 0 && r.calls[0] == SignIn(NormalizeEmail(email), password)
    ensures forall c :: c in r.calls ==> c == SignIn(NormalizeEmail(email), password) || c == ConfirmEmail(NormalizeEmail(email))
    // exactly one retry, and only for an unconfirmed address
    ensures SignIns(r.calls) == (if Unconfirmed(w.first) then 2 else 1)
    ensures ConfirmEmail(NormalizeEmail(email)) in r.calls <==> Unconfirmed(w.first)
    // the confirm RPC's own error is ignored: the retry decides
    ensures Unconfirmed(w.first) ==> r.result == Answered(w.retry)
    ensures !Unconfirmed(w.first) ==> r.result == Answered(w.first)
  {
    var address := NormalizeEmail(email);
    if Unconfirmed(w.first) then
      var calls := [SignIn(address, password), ConfirmEmail(address), SignIn(address, password)];
      assert SignIns(calls) == 2 by {
        var once := [SignIn(address, password)];
        assert SignIns(once) == 1 && SignIns([ConfirmEmail(address)]) == 0;
        SignInsAppend(once, [ConfirmEmail(address)]);
        SignInsAppend(once + [ConfirmEmail(address)], once);
        assert calls == once + [ConfirmEmail(address)] + once;
      }
      Traced(Answered(w.retry), calls)
    else
      Traced(Answered(w.first), [SignIn(address, password)])
  }

  /** Once provisioning produced an account, registration signs in right after
      the provisioning calls, with the normalised address. */
  lemma RegisterSignsInAfterProvision(store: Store, email: string, password: string, data: Attributes,
                                      w: RegisterReplies)
    requires Provision(NormalizeEmail(email), password, Metadata(data.nome, email), w).result.None?
    ensures var p := Provision(NormalizeEmail(email), password, Metadata(data.nome, email), w);
      var r := Register(store, email, password, data, w);
      |r.calls| > |p.calls| && r.calls[|p.calls|] == SignIn(NormalizeEmail(email), password)
  {
    var address := NormalizeEmail(email);
    var p := Provision(address, password, Metadata(data.nome, email), w);
    var calls := p.calls + [SignIn(address, password)];
    var r := Register(store, email, password, data, w);
    if w.signIn.Granted? && (w.signIn.user.Some? || (w.admin.Granted? && w.admin.user.Some?)) {
      var u := if w.signIn.user.Some? then w.signIn.user.value else w.admin.user.value;
      assert r.calls == calls + [InsertRow(RegistrationRow(u.id, email, data))];
    } else {
      assert r.calls == calls;
    }
  }

  /** Registration and login send the provider the same address for the same
      input, whichever provisioning call produced the account. */
  lemma SameAddress(email: string, password: string, data: Attributes, rw: RegisterReplies, lw: LoginReplies, store: Store)
    requires Provision(NormalizeEmail(email), password, Metadata(data.nome, email), rw).result.None?
    ensures SignIn(NormalizeEmail(email), password) in Register(store, email, password, data, rw).calls
    ensures SignIn(NormalizeEmail(email), password) in Login(email, password, lw).calls
  {
    RegisterSignsInAfterProvision(store, email, password, data, rw);
  }

  /** `authService.logout()`. */
  function Logout(reply: Option<Error>): (r: Traced<Outcome>)
    ensures r.calls == [SignOut]
    ensures r.result.Pass? <==> reply.None?
    ensures r.result.Fail? ==> r.result.error == reply.value
  {
    Traced(if reply.None? then Pass else Fail(reply.value), [SignOut])
  }

  /** `authService.getCurrentUser()`. */
  function GetCurrentUser(lookup: UserLookup): (r: Traced<Result<Option<AuthUser>>>)
    ensures r.calls == [GetUser]
    ensures lookup.SignedIn? ==> r.result == Ok(lookup.user)
    ensures lookup.LookupFailed? ==> r.result == Err(lookup.error)
  {
    match lookup
    case SignedIn(u) => Traced(Ok(u), [GetUser])
    case LookupFailed(e) => Traced(Err(e), [GetUser])
  }

  /** `authService.resetPassword(email)`: unlike login, the address goes out as typed. */
  function RequestPasswordReset(email: string, reply: Option<Error>): (r: Traced<Outcome>)
    ensures r.calls == [ResetPassword(email)]
    ensures r.result.Pass? <==> reply.None?
    ensures reply.Some? ==> r.result == Fail(reply.value)
  {
    Traced(if reply.None? then Pass else Fail(reply.value), [ResetPassword(email)])
  }

  /** A bare handle signs in under the default domain but asks for a reset as typed. */
  lemma ResetSkipsNormalization(lw: LoginReplies)
    ensures Login("alice", "pw123456", lw).calls[0] == SignIn("alice@exemplo.com", "pw123456")
    ensures RequestPasswordReset("alice", None).calls == [ResetPassword("alice")]
  {
    NormalizeAlice();
  }

  /** The handle "alice" goes out as "alice@exemplo.com". */
  lemma NormalizeAlice()
    ensures NormalizeEmail("alice") == "alice@exemplo.com"
  {
    assert '@' !in "alice";
  }
}

=== FILE: login_page.dfy ===
/** The sign-in page: it calls the session's login and either moves on to the
    user list or shows an error. */
module LoginPage {
  import opened Values
  import opened Table
  import AuthContext
  import AuthService
  import UserService
  import Records

  const LoginFallback := "Falha na autenticação // Protocolo de segurança rejeitado."

  /** The alert and the redirect the page ends with. */
  datatype View = View(error: string, redirect: Option<string>)

  /** The page as written: the answer's `error` is the session's message, a
      string; an empty one is falsy and is not thrown, and a thrown one has no
      `message`, so the fallback is shown. */
  function ReportAsWritten(answer: AuthContext.Answer): (v: View)
    ensures answer.Success? ==> v == View("", Some("/users"))
    ensures answer.Failure? && answer.message != "" ==> v == View(LoginFallback, None)
    ensures answer.Failure? && answer.message == "" ==> v.redirect == Some("/users")
  {
    match answer
    case Success => View("", Some("/users"))
    case Failure(m) =>
      if m == "" then View("", Some("/users"))
      else View(Or(MessageOf(Str(m)), LoginFallback), None)
  }

  /** Every failure with a message shows the fallback instead, and a failure
      without one leads to the user list. */
  lemma AsWrittenMisreports(m: string)
    ensures m != "" ==> ReportAsWritten(AuthContext.Failure(m)) == View(LoginFallback, None)
    ensures m == "" ==> ReportAsWritten(AuthContext.Failure(m)).redirect == Some("/users")
  {
  }

  /** An identity provider refusing with an error object that has no message:
      the session stays signed out and the page still moves on. */
  lemma SilentRefusalNavigates(store: Store, email: string, password: string, w: AuthContext.LoginReplies)
    requires w.auth.first == Records.Denied(Error(""))
    ensures var st := AuthContext.Login(AuthContext.Initial, store, email, password, w);
      && !AuthContext.IsAuthenticated(st.session)
      && st.answer == AuthContext.Failure("")
      && ReportAsWritten(st.answer).redirect == Some("/users")
  {
    assert !AuthService.Unconfirmed(w.auth.first);
  }

  /** The page as evidently intended: move on exactly on success, otherwise show
      the session's message or the fallback. */
  function Report(answer: AuthContext.Answer): (v: View)
    ensures v.redirect.Some? <==> answer.Success?
    ensures v.redirect.Some? ==> v == View("", Some("/users"))
    ensures answer.Failure? ==> v.error != "" && (answer.message != "" ==> v.error == answer.message)
  {
    match answer
    case Success => View("", Some("/users"))
    case Failure(m) => View(Or(m, LoginFallback), None)
  }

  /** `handleSubmit` as written: log in and report through `ReportAsWritten`. */
  function HandleSubmit(s: AuthContext.Session, store: Store, email: string, password: string,
                        w: AuthContext.LoginReplies): (r: (View, AuthContext.Step))
    ensures r.1 == AuthContext.Login(s, store, email, password, w)
    // success moves on; a failure with a message shows the fallback instead
    ensures r.1.answer.Success? ==> r.0 == View("", Some("/users"))
    ensures r.1.answer.Failure? && r.1.answer.message != "" ==> r.0 == View(LoginFallback, None)
    // a failure without a message moves on too
    ensures r.1.answer == AuthContext.Failure("") ==> r.0.redirect == Some("/users")
    // so the page leaves for the user list exactly on success or a silent failure
    ensures r.0.redirect == Some("/users") <==> r.1.answer.Success? || r.1.answer == AuthContext.Failure("")
  {
    var st := AuthContext.Login(s, store, email, password, w);
    (ReportAsWritten(st.answer), st)
  }

  /** As written, the page can reach the user list with nobody signed in. */
  lemma SubmitNavigatesSignedOut(store: Store, email: string, password: string, w: AuthContext.LoginReplies)
    requires w.auth.first == Records.Denied(Error(""))
    ensures var (v, st) := HandleSubmit(AuthContext.Initial, store, email, password, w);
      v.redirect == Some("/users") && !AuthContext.IsAuthenticated(st.session)
  {
    SilentRefusalNavigates(store, email, password, w);
  }

  /** `handleSubmit` with the corrected report. */
  function HandleSubmitCorrected(s: AuthContext.Session, store: Store, email: string, password: string,
                                 w: AuthContext.LoginReplies): (r: (View, AuthContext.Step))
    ensures r.1 == AuthContext.Login(s, store, email, password, w)
    ensures r.0.redirect.Some? <==> r.1.answer.Success?
    ensures r.1.answer.Failure? ==> r.0.error == Or(r.1.answer.message, LoginFallback)
  {
    var st := AuthContext.Login(s, store, email, password, w);
    (Report(st.answer), st)
  }

  /** The corrected page reaches the user list only once the session holds a
      user, provided the provider's grant names one (a grant always does; the
      case without one is `NullGrantNavigatesSignedOut`). */
  lemma NavigatesOnlyWhenSignedIn(s: AuthContext.Session, store: Store, email: string, password: string,
                                  w: AuthContext.LoginReplies, u: Records.AuthUser)
    requires AuthService.Login(email, password, w.auth).result == Ok(Some(u))
    ensures var (v, st) := HandleSubmitCorrected(s, store, email, password, w);
      v.redirect.Some? ==> AuthContext.IsAuthenticated(st.session) && st.session.user == Some(u)
  {
  }

  /** A grant without a user sets the session's user to null, yet the profile
      fetch asks the provider on its own: when that finds a row, even the
      corrected page reaches the user list with nobody signed in. */
  lemma NullGrantNavigatesSignedOut(s: AuthContext.Session, store: Store, email: string, password: string,
                                    w: AuthContext.LoginReplies, p: Records.Row)
    requires AuthService.Login(email, password, w.auth).result == Ok(None)
    requires UserService.GetCurrentUserProfile(store, w.fetch).result == Ok(Some(p))
    ensures var (v, st) := HandleSubmitCorrected(s, store, email, password, w);
      && v.redirect == Some("/users") && !AuthContext.IsAuthenticated(st.session)
      && st.session.profile == Some(p)
  {
  }
}

=== FILE: profile_page.dfy ===
/** The signed-in user's own page: what it displays from the session, and its
    two actions, logging out and deleting the account. */
module ProfilePage {
  import opened Values
  import opened Records
  import opened Table
  import AuthContext
  import UserCard

  const NoEmail := "N/A"
  const NoName := "Nome não definido"
  const NoAge := "Idade não definida"
  const NoDescription := "Sem descrição"
  const NoId := "N/A"
  const AuthAlertFallback := "Ocorreu um erro na autenticação."

  /** The profile's property, or `undefined` without a profile. */
  function ProfileNome(s: AuthContext.Session): Field<string> {
    if s.profile.Some? then s.profile.value.nome else Undefined
  }

  /** `user?.user_metadata?.nome` */
  function MetaNome(s: AuthContext.Session): Field<string> {
    if s.user.Some? then s.user.value.metaNome else Undefined
  }

  /** The name shown: the profile's, else the one kept in the identity's
      metadata, else a placeholder. */
  function DisplayName(s: AuthContext.Session): (r: string)
    ensures r != ""
    ensures Truthy(ProfileNome(s)) ==> r == ProfileNome(s).value
    ensures !Truthy(ProfileNome(s)) && Truthy(MetaNome(s)) ==> r == MetaNome(s).value
    ensures !Truthy(ProfileNome(s)) && !Truthy(MetaNome(s)) ==> r == NoName
  {
    FieldOr(ProfileNome(s), FieldOr(MetaNome(s), NoName))
  }

  /** The address shown is the identity's, which is the normalised one, not the
      profile's. */
  function DisplayEmail(s: AuthContext.Session): (r: string)
    ensures r != ""
    ensures s.user.Some? && s.user.value.email != "" ==> r == s.user.value.email
    ensures s.user.None? || s.user.value.email == "" ==> r == NoEmail
  {
    if s.user.Some? then Or(s.user.value.email, NoEmail) else NoEmail
  }

  /** The age shown: any number, including 0; a placeholder for NULL or no profile. */
  function DisplayAge(s: AuthContext.Session): (r: Shown)
    ensures s.profile.Some? && s.profile.value.idade.Val? ==> r == Number(s.profile.value.idade.value)
    ensures s.profile.None? || !s.profile.value.idade.Val? ==> r == Text(NoAge)
  {
    if s.profile.Some? && s.profile.value.idade.Val? then Number(s.profile.value.idade.value) else Text(NoAge)
  }

  function DisplayDescription(s: AuthContext.Session): (r: string)
    ensures r != ""
    ensures s.profile.Some? && Truthy(s.profile.value.descricao) ==> r == s.profile.value.descricao.value
    ensures s.profile.None? || !Truthy(s.profile.value.descricao) ==> r == NoDescription
  {
    FieldOr(if s.profile.Some? then s.profile.value.descricao else Undefined, NoDescription)
  }

  function DisplayId(s: AuthContext.Session): (r: string)
    ensures r != ""
    ensures s.user.Some? && s.user.value.id != "" ==> r == s.user.value.id
    ensures s.user.None? || s.user.value.id == "" ==> r == NoId
  {
    if s.user.Some? then Or(s.user.value.id, NoId) else NoId
  }

  /** A profile made by login's self-healing shows the metadata name when there
      is one, an empty description and no age. */
  lemma SelfHealedProfileShown(s: AuthContext.Session, u: AuthUser)
    requires s.user == Some(u) && s.profile == Some(Stored(AuthContext.SelfHealRow(u)))
    ensures DisplayName(s) == FieldOr(u.metaNome, NoName)
    ensures DisplayDescription(s) == NoDescription
    ensures DisplayAge(s) == Text(NoAge)
  {
  }

  /** The same NULL age is a placeholder here and an empty slot on a card. */
  lemma NullAgeContrast(s: AuthContext.Session, p: Row)
    requires s.profile == Some(p) && p.idade.Null?
    ensures DisplayAge(s) == Text(NoAge)
    ensures UserCard.Render(p).age == Nothing
  {
  }

  /** The alert as written: the session's error is a string, whose `message` is
      undefined, so any non-empty error shows the fallback. */
  function AlertAsWritten(s: AuthContext.Session): (r: Option<string>)
    ensures r.Some? <==> s.error.Some? && s.error.value != ""
    ensures r.Some? ==> r.value == AuthAlertFallback
  {
    if s.error.Some? && s.error.value != "" then Some(Or(MessageOf(Str(s.error.value)), AuthAlertFallback))
    else None
  }

  /** The alert as evidently intended: the session's error itself. */
  function Alert(s: AuthContext.Session): (r: Option<string>)
    ensures r.Some? <==> s.error.Some? && s.error.value != ""
    ensures r.Some? ==> r == s.error
  {
    if s.error.Some? && s.error.value != "" then Some(s.error.value) else None
  }

  /** A failed sign-out keeps the user and records its message, but the page
      moves to the login page anyway: logout answers instead of throwing. */
  function HandleLogout(s: AuthContext.Session, store: Store, signOut: Option<Error>)
    : (r: (Option<string>, AuthContext.Step))
    ensures r.0 == Some("/login")
    ensures r.1 == AuthContext.Logout(s, store, signOut)
    // it leaves even when the sign-out was refused and the session is kept
    ensures signOut.Some? ==> r.1.session.user == s.user && r.1.session.profile == s.profile
    ensures signOut.None? ==> !AuthContext.IsAuthenticated(r.1.session)
  {
    (Some("/login"), AuthContext.Logout(s, store, signOut))
  }

  lemma LogoutFailureStillLeaves(s: AuthContext.Session, store: Store, e: Error)
    requires AuthContext.IsAuthenticated(s)
    ensures var (target, st) := HandleLogout(s, store, Some(e));
      target == Some("/login") && AuthContext.IsAuthenticated(st.session) && st.answer.Failure?
  {
  }

  /** Confirming the deletion: the login page on success, otherwise the
      dialog closes and the page stays. */
  function ConfirmDelete(s: AuthContext.Session, store: Store, rowFault: Option<Error>, authFault: Option<Error>)
    : (r: (Option<string>, AuthContext.Step))
    ensures r.1 == AuthContext.DeleteAccount(s, store, rowFault, authFault)
    ensures r.0 == Some("/login") <==> s.user.Some? && rowFault.None?
    ensures r.0.None? ==> r.1.session.user == s.user && r.1.store == store
  {
    var st := AuthContext.DeleteAccount(s, store, rowFault, authFault);
    (if st.answer.Success? then Some("/login") else None, st)
  }
}

=== FILE: records.dfy ===
/** The records the client exchanges with the hosted auth provider and the
    `usuarios` table, the provider's answers, and the trace of remote calls an
    operation issues. */
module Records {
  import opened Values

  /** The provider's user object: its id, the (normalised) address the provider
      holds, and `user_metadata.nome`. */
  datatype AuthUser = AuthUser(id: string, email: string, metaNome: Field<string>)

  /** A row of `usuarios` (id, nome, idade, descricao, email, updated_at), or a
      JavaScript object of the same shape whose properties may be missing. */
  datatype Row = Row(
    id: Field<string>,
    nome: Field<string>,
    idade: Field<int>,
    descricao: Field<string>,
    email: Field<string>,
    updatedAt: Field<int>)

  /** The `userData` a caller passes to register or to a profile update. */
  datatype Attributes = Attributes(nome: Field<string>, idade: Field<int>, descricao: Field<string>)

  /** `user_metadata` written at sign-up: the name and the address as typed. */
  datatype Metadata = Metadata(nome: Field<string>, originalEmail: string)

  /** The provider's answer to `admin.createUser` or `signInWithPassword`:
      `data.user` (possibly null) or an error. */
  datatype AuthReply = Granted(user: Option<AuthUser>) | Denied(error: Error)

  /** The provider's answer to `auth.getUser()`. */
  datatype UserLookup = LookupFailed(error: Error) | SignedIn(user: Option<AuthUser>)

  /** One remote call, as issued. */
  datatype Call =
    | AdminCreateUser(email: string, password: string, meta: Metadata)
    | SignUp(email: string, password: string, meta: Metadata)
    | ConfirmEmail(email: string)
    | SignIn(email: string, password: string)
    | SignOut
    | GetUser
    | ResetPassword(email: string)
    | SelectById(id: Field<string>)
    | SelectAll
    | InsertRow(row: Row)
    | UpdateRow(id: Field<string>, patch: Attributes)
    | DeleteRow(id: Field<string>)
    | AdminDeleteUser(id: Field<string>)

  /** An operation's answer together with the calls it issued. */
  datatype Traced<+R> = Traced(result: R, calls: seq<Call>)

  /** Number of inserts into `usuarios` in a trace. */
  function Inserts(calls: seq<Call>): nat {
    if |calls| == 0 then 0
    else (if calls[0].InsertRow? then 1 else 0) + Inserts(calls[1..])
  }

  /** Number of sign-in attempts in a trace. */
  function SignIns(calls: seq<Call>): nat {
    if |calls| == 0 then 0
    else (if calls[0].SignIn? then 1 else 0) + SignIns(calls[1..])
  }

  lemma {:induction false} NoInserts(calls: seq<Call>)
    requires forall c :: c in calls ==> !c.InsertRow?
    ensures Inserts(calls) == 0
  {
    if |calls| > 0 {
      assert calls[0] in calls;
      assert forall c :: c in calls[1..] ==> c in calls;
      NoInserts(calls[1..]);
    }
  }

  lemma {:induction false} NoSignIns(calls: seq<Call>)
    requires forall c :: c in calls ==> !c.SignIn?
    ensures SignIns(calls) == 0
  {
    if |calls| > 0 {
      assert calls[0] in calls;
      assert forall c :: c in calls[1..] ==> c in calls;
      NoSignIns(calls[1..]);
    }
  }

  lemma {:induction false} InsertsAppend(a: seq<Call>, b: seq<Call>)
    ensures Inserts(a + b) == Inserts(a) + Inserts(b)
  {
    if |a| == 0 {
      assert a + b == b;
    } else {
      assert (a + b)[1..] == a[1..] + b;
      InsertsAppend(a[1..], b);
    }
  }

  lemma {:induction false} SignInsAppend(a: seq<Call>, b: seq<Call>)
    ensures SignIns(a + b) == SignIns(a) + SignIns(b)
  {
    if |a| == 0 {
      assert a + b == b;
    } else {
      assert (a + b)[1..] == a[1..] + b;
      SignInsAppend(a[1..], b);
    }
  }
}

=== FILE: register_page.dfy ===
/** The sign-up page: the checks made before anything is sent, the `userData`
    it builds, and the message or redirect it shows for the session's answer. */
module RegisterPage {
  import opened Values
  import opened Records
  import opened Strings
  import opened Table
  import AuthContext

  const NameRequired := "O campo Nome é obrigatório."
  const AgeRequired := "O campo Idade é obrigatório e deve ser um número."
  const PasswordMismatch := "As senhas não coincidem."
  const Registered := "Identidade forjada com sucesso! Redirecionando para autorização..."
  const RegisterFallback := "Falha ao forjar identidade. Verifique os dados."

  /** The five inputs, as typed. */
  datatype Form = Form(nome: string, email: string, idade: string, password: string, confirmPassword: string)

  /** The alerts and the redirect the page ends with. */
  datatype View = View(error: string, success: string, redirect: Option<string>)

  /** The page's view, and the session step if the form was sent at all. */
  datatype Submitted = Submitted(view: View, step: Option<AuthContext.Step>)

  /** The checks, in the page's order; when they pass, the `userData` sent:
      the name and the parsed age, no description. */
  function Validate(f: Form): (r: Result<Attributes>)
    ensures r.Ok? <==> f.nome != "" && ParseInt(f.idade).Some? && f.password == f.confirmPassword
    ensures r.Ok? ==> r.value == Attributes(Val(f.nome), Val(ParseInt(f.idade).value), Undefined)
    ensures f.nome == "" ==> r == Err(Error(NameRequired))
    ensures f.nome != "" && ParseInt(f.idade).None? ==> r == Err(Error(AgeRequired))
    ensures f.nome != "" && ParseInt(f.idade).Some? && f.password != f.confirmPassword ==>
      r == Err(Error(PasswordMismatch))
  {
    if f.nome == "" then Err(Error(NameRequired))
    else
      var age := ParseInt(f.idade);
      if age.None? || f.idade == "" then Err(Error(AgeRequired))
      else if f.password != f.confirmPassword then Err(Error(PasswordMismatch))
      else Ok(Attributes(Val(f.nome), Val(age.value), Undefined))
  }

  /** An age typed in decimal reaches the session as that number, whatever
      non-digits follow it. */
  lemma AgeReadBack(nome: string, email: string, password: string, n: nat, rest: string)
    requires nome != ""
    requires rest == "" || !IsDigit(rest[0])
    ensures Validate(Form(nome, email, Decimal(n) + rest, password, password))
      == Ok(Attributes(Val(nome), Val(n), Undefined))
    ensures Validate(Form(nome, email, "-" + Decimal(n) + rest, password, password))
      == Ok(Attributes(Val(nome), Val(-(n as int)), Undefined))
  {
    ParseDecimal(n, rest);
  }

  /** The page as written: the session answers with a string, whose `message`
      is undefined, so the fallback is shown for every failure. */
  function ReportAsWritten(answer: AuthContext.Answer): (v: View)
    ensures answer.Success? <==> v.redirect == Some("/login")
    ensures answer.Failure? ==> v == View(RegisterFallback, "", None)
  {
    match answer
    case Success => View("", Registered, Some("/login"))
    case Failure(m) => View(Or(MessageOf(Str(m)), RegisterFallback), "", None)
  }

  lemma AsWrittenHidesReason(m: string)
    ensures ReportAsWritten(AuthContext.Failure(m)).error == RegisterFallback
    ensures m == DuplicateKey.message ==> ReportAsWritten(AuthContext.Failure(m)).error != m
  {
  }

  /** The page as evidently intended: the session's own message, or the fallback
      when it is empty. */
  function Report(answer: AuthContext.Answer): (v: View)
    ensures answer.Success? <==> v.redirect == Some("/login")
    ensures answer.Success? ==> v.error == "" && v.success == Registered
    ensures answer.Failure? ==>
      (v.success == "" && v.error != "" && (answer.message != "" ==> v.error == answer.message))
  {
    match answer
    case Success => View("", Registered, Some("/login"))
    case Failure(m) => View(Or(m, RegisterFallback), "", None)
  }

  /** `handleSubmit` as written: validate, and only then register; a failed
      registration is reported through `ReportAsWritten`. */
  function HandleSubmit(f: Form, s: AuthContext.Session, store: Store, w: AuthContext.RegisterReplies)
    : (r: Submitted)
    ensures Validate(f).Err? ==> r.step.None? && r.view == View(Validate(f).error.message, "", None)
    ensures Validate(f).Ok? ==>
      && r.step == Some(AuthContext.Register(s, store, f.email, f.password, Validate(f).value, w))
      && r.view == ReportAsWritten(r.step.value.answer)
    // only a successful registration leaves for the login page; any other
    // outcome stays on the form with an error shown
    ensures r.view.redirect == Some("/login") <==> r.step.Some? && r.step.value.answer.Success?
    ensures r.view.redirect.None? ==> r.view.error != ""
  {
    match Validate(f)
    case Err(e) => Submitted(View(e.message, "", None), None)
    case Ok(a) =>
      var st := AuthContext.Register(s, store, f.email, f.password, a, w);
      Submitted(ReportAsWritten(st.answer), Some(st))
  }

  /** As written, a sent form that the session refuses shows the fallback,
      never the message the session recorded. */
  lemma SubmitHidesSessionMessage(f: Form, s: AuthContext.Session, store: Store, w: AuthContext.RegisterReplies)
    requires Validate(f).Ok?
    ensures var r := HandleSubmit(f, s, store, w);
      && (r.view.redirect == Some("/login") <==> r.step.value.answer.Success?)
      && (r.step.value.answer.Failure? ==> r.view.error == RegisterFallback && r.step.value.session.error.Some?)
  {
  }

  /** `handleSubmit` with the corrected report. */
  function HandleSubmitCorrected(f: Form, s: AuthContext.Session, store: Store, w: AuthContext.RegisterReplies)
    : (r: Submitted)
    ensures Validate(f).Err? ==> r.step.None? && r.view == View(Validate(f).error.message, "", None)
    ensures Validate(f).Ok? ==>
      && r.step == Some(AuthContext.Register(s, store, f.email, f.password, Validate(f).value, w))
      && r.view == Report(r.step.value.answer)
  {
    match Validate(f)
    case Err(e) => Submitted(View(e.message, "", None), None)
    case Ok(a) =>
      var st := AuthContext.Register(s, store, f.email, f.password, a, w);
      Submitted(Report(st.answer), Some(st))
  }

  /** With the corrected report, a refused form sends nothing; a sent form ends
      on the login page exactly when the session answered success, and
      otherwise shows the session's own message. */
  lemma SubmitShowsSessionMessage(f: Form, s: AuthContext.Session, store: Store, w: AuthContext.RegisterReplies)
    requires Validate(f).Ok?
    ensures var r := HandleSubmitCorrected(f, s, store, w);
      && (r.view.redirect == Some("/login") <==> r.step.value.answer.Success?)
      && (r.step.value.answer.Failure? ==> r.view.error == r.step.value.session.error.value)
  {
    var st := AuthContext.Register(s, store, f.email, f.password, Validate(f).value, w);
    assert st.answer.Failure? ==> st.session.error == Some(st.answer.message);
  }
}

=== FILE: strings.dfy ===
/** The JavaScript string operations the client relies on: `includes`, `split`
    on one character, ASCII `toLowerCase`, and `parseInt(s, 10)`. */
module Strings {
  import opened Values

  /** Number of occurrences of `c` in `s`. */
  function Count(s: string, c: char): nat {
    if |s| == 0 then 0 else (if s[0] == c then 1 else 0) + Count(s[1..], c)
  }

  lemma {:induction false} CountZero(s: string, c: char)
    ensures Count(s, c) == 0 <==> c !in s
  {
    if |s| > 0 {
      CountZero(s[1..], c);
      assert s == [s[0]] + s[1..];
    }
  }

  lemma {:induction false} CountAppend(a: string, b: string, c: char)
    ensures Count(a + b, c) == Count(a, c) + Count(b, c)
  {
    if |a| == 0 {
      assert a + b == b;
    } else {
      assert (a + b)[1..] == a[1..] + b;
      CountAppend(a[1..], b, c);
    }
  }

  /** Position of the first `c` in `s` (`s.indexOf(c)` when `c` occurs). */
  function IndexOf(s: string, c: char): (i: nat)
    requires c in s
    ensures i < |s| && s[i] == c && c !in s[..i]
  {
    if s[0] == c then 0
    else
      assert s == [s[0]] + s[1..];
      var j := IndexOf(s[1..], c);
      assert s[..j + 1] == [s[0]] + s[1..][..j];
      j + 1
  }

  /** `s.split(sep)` for a one-character separator. */
  function Split(s: string, sep: char): (parts: seq<string>)
    ensures |parts| == Count(s, sep) + 1
    ensures forall i :: 0 <= i < |parts| ==> sep !in parts[i]
  {
    if |s| == 0 then [""]
    else
      var rest := Split(s[1..], sep);
      if s[0] == sep then [""] + rest
      else [[s[0]] + rest[0]] + rest[1..]
  }

  /** `parts.join(sep)`, the inverse of `Split`. */
  function Join(parts: seq<string>, sep: char): string {
    if |parts| == 0 then ""
    else if |parts| == 1 then parts[0]
    else parts[0] + [sep] + Join(parts[1..], sep)
  }

  /** Splitting and joining again gives back the string. */
  lemma {:induction false} JoinSplit(s: string, sep: char)
    ensures Join(Split(s, sep), sep) == s
  {
    if |s| > 0 {
      var rest := Split(s[1..], sep);
      JoinSplit(s[1..], sep);
      assert s == [s[0]] + s[1..];
      if s[0] != sep && |rest| > 1 {
        assert Join(rest, sep) == rest[0] + [sep] + Join(rest[1..], sep);
        assert ([[s[0]] + rest[0]] + rest[1..])[1..] == rest[1..];
      }
    }
  }

  /** The part of `s` before its first `c`. */
  function Before(s: string, c: char): string
    requires c in s
  {
    s[..IndexOf(s, c)]
  }

  /** The part of `s` after its first `c`. */
  function After(s: string, c: char): string
    requires c in s
  {
    s[IndexOf(s, c) + 1..]
  }

  /** In `a + [c] + b` with no `c` in `a`, the first `c` is the one between them. */
  lemma FirstOccurrence(a: string, c: char, b: string)
    requires c !in a
    ensures c in a + [c] + b
    ensures Before(a + [c] + b, c) == a && After(a + [c] + b, c) == b
  {
    var s := a + [c] + b;
    assert s[|a|] == c;
    assert IndexOf(s, c) == |a|;
    assert s[..|a|] == a;
    assert s[|a| + 1..] == b;
  }

  /** With exactly one separator, `split` yields the parts before and after it. */
  lemma SplitOnce(s: string, sep: char)
    requires Count(s, sep) == 1
    ensures sep in s
    ensures Split(s, sep) == [Before(s, sep), After(s, sep)]
  {
    var parts := Split(s, sep);
    JoinSplit(s, sep);
    assert Join(parts[1..], sep) == parts[1];
    assert s == parts[0] + [sep] + parts[1];
    FirstOccurrence(parts[0], sep, parts[1]);
  }

  /** `s.startsWith(p)` */
  predicate StartsWith(s: string, p: string) {
    |p| <= |s| && s[..|p|] == p
  }

  /** `s.includes(sub)` */
  predicate Contains(s: string, sub: string)
    decreases |s|
  {
    StartsWith(s, sub) || (|s| > 0 && Contains(s[1..], sub))
  }

  /** A match found at position `i` is a match of `includes`. */
  lemma {:induction false} ContainsAt(s: string, sub: string, i: nat)
    requires i + |sub| <= |s| && s[i..i + |sub|] == sub
    ensures Contains(s, sub)
    decreases i
  {
    if i > 0 {
      assert s[1..][i - 1..i - 1 + |sub|] == s[i..i + |sub|];
      ContainsAt(s[1..], sub, i - 1);
    }
  }

  /** ASCII case folding of `toLowerCase`. */
  function LowerChar(c: char): char {
    if 'A' <= c <= 'Z' then (c as int + 32) as char else c
  }

  function Lower(s: string): string {
    if |s| == 0 then "" else [LowerChar(s[0])] + Lower(s[1..])
  }

  /** Lower-casing twice is lower-casing once, and keeps the length. */
  lemma {:induction false} LowerIdempotent(s: string)
    ensures |Lower(s)| == |s|
    ensures Lower(Lower(s)) == Lower(s)
  {
    if |s| > 0 {
      LowerIdempotent(s[1..]);
      assert Lower(s)[1..] == Lower(s[1..]);
    }
  }

  predicate IsDigit(c: char) {
    '0' <= c <= '9'
  }

  /** The white space `parseInt` skips before the number (the Unicode space
      separators other than U+00A0 are not listed). */
  predicate IsSpace(c: char) {
    c == ' ' || c == '\t' || c == '\n' || c == '\r' || c == '\U{B}' || c == '\U{C}'
    || c == '\U{A0}' || c == '\U{FEFF}' || c == '\U{2028}' || c == '\U{2029}'
  }

  function TrimStart(s: string): string {
    if |s| > 0 && IsSpace(s[0]) then TrimStart(s[1..]) else s
  }

  /** The longest run of decimal digits at the start of `s`. */
  function DigitPrefix(s: string): string {
    if |s| > 0 && IsDigit(s[0]) then [s[0]] + DigitPrefix(s[1..]) else ""
  }

  function DigitValue(c: char): nat {
    if IsDigit(c) then c as int - '0' as int else 0
  }

  /** The value of a run of digits, most significant first. */
  function DigitsValue(d: string): nat {
    if |d| == 0 then 0 else DigitsValue(d[..|d| - 1]) * 10 + DigitValue(d[|d| - 1])
  }

  /** `parseInt(s, 10)`: `None` is `NaN`. */
  function ParseInt(s: string): Option<int> {
    var t := TrimStart(s);
    var signed := |t| > 0 && (t[0] == '-' || t[0] == '+');
    var digits := DigitPrefix(if signed then t[1..] else t);
    if digits == "" then None
    else
      var v: int := DigitsValue(digits);
      if signed && t[0] == '-' then Some(-v) else Some(v)
  }

  function DigitChar(d: nat): char
    requires d < 10
  {
    ('0' as int + d) as char
  }

  /** The decimal notation of `n`, as `String(n)` prints it. */
  function Decimal(n: nat): string {
    if n < 10 then [DigitChar(n)] else Decimal(n / 10) + [DigitChar(n % 10)]
  }

  predicate AllDigits(d: string) {
    forall i :: 0 <= i < |d| ==> IsDigit(d[i])
  }

  /** `Decimal` prints digits only, and reading them back gives `n`. */
  lemma {:induction false} DecimalDigits(n: nat)
    ensures |Decimal(n)| > 0 && AllDigits(Decimal(n))
    ensures DigitsValue(Decimal(n)) == n
  {
    if n >= 10 {
      DecimalDigits(n / 10);
      var d := Decimal(n);
      assert d[..|d| - 1] == Decimal(n / 10);
    }
  }

  lemma {:induction false} DigitPrefixOf(d: string, rest: string)
    requires AllDigits(d)
    requires rest == "" || !IsDigit(rest[0])
    ensures DigitPrefix(d + rest) == d
  {
    if |d| == 0 {
      assert d + rest == rest;
    } else {
      assert (d + rest)[1..] == d[1..] + rest;
      DigitPrefixOf(d[1..], rest);
      assert d == [d[0]] + d[1..];
    }
  }

  /** `parseInt` reads back what `Decimal` printed, with or without a minus sign,
      and ignores whatever follows the digits. */
  lemma ParseDecimal(n: nat, rest: string)
    requires rest == "" || !IsDigit(rest[0])
    ensures ParseInt(Decimal(n) + rest) == Some(n)
    ensures ParseInt("-" + Decimal(n) + rest) == Some(-(n as int))
  {
    DecimalDigits(n);
    var d := Decimal(n);
    var s := d + rest;
    DigitPrefixOf(d, rest);
    assert s[0] == d[0] && IsDigit(s[0]);
    assert TrimStart(s) == s;
    var t := "-" + d + rest;
    assert t[0] == '-' && TrimStart(t) == t;
    assert t[1..] == s;
  }
}

=== FILE: table.dfy ===
/** The `usuarios` table as the client sees it: rows keyed by their id (the
    primary key), the INSERT every profile creation issues, lookups by id, and
    the order listings are returned in. */
module Table {
  import opened Values
  import opened Records

  /** Every row is stored under its own id. */
  predicate Keyed(m: map<string, Row>) {
    forall k :: k in m ==> m[k].id == Val(k)
  }

  type Store = m: map<string, Row> | Keyed(m) witness map[]

  /** An operation's answer, the table after it, and the calls it issued. */
  datatype Served<+R> = Served(result: R, store: Store, calls: seq<Call>)

  /** Errors the database reports (PostgreSQL / PostgREST wording). */
  const DuplicateKey := Error("duplicate key value violates unique constraint \"usuarios_pkey\"")
  const NullId := Error("null value in column \"id\" violates not-null constraint")
  const NotSingle := Error("JSON object requested, multiple (or no) rows returned")

  /** What a column holds after a write that supplied `f`: a property left
      `undefined` is dropped from the JSON body, so the column stays NULL. */
  function Column<T>(f: Field<T>): Field<T> {
    if f.Undefined? then Null else f
  }

  /** The row as stored from an insert payload. */
  function Stored(row: Row): Row {
    Row(Column(row.id), Column(row.nome), Column(row.idade), Column(row.descricao),
        Column(row.email), Column(row.updatedAt))
  }

  /** `insert([row])`: one call, failing on a transport or permission fault, on a
      missing id (NOT NULL), or on an id already present (primary key). */
  function Insert(store: Store, row: Row, fault: Option<Error>): (r: Served<Outcome>)
    ensures r.calls == [InsertRow(row)]
    ensures r.result.Pass? <==> fault.None? && row.id.Val? && row.id.value !in store
    ensures r.result.Fail? ==> r.store == store
    ensures fault.None? && row.id.Val? && row.id.value in store ==> r.result == Fail(DuplicateKey)
    ensures r.result.Pass? ==>
      && r.store.Keys == store.Keys + {row.id.value}
      && r.store[row.id.value] == Stored(row)
      && forall k :: k in store ==> r.store[k] == store[k]
  {
    if fault.Some? then Served(Fail(fault.value), store, [InsertRow(row)])
    else
      match row.id
      case Val(k) =>
        if k in store then Served(Fail(DuplicateKey), store, [InsertRow(row)])
        else Served(Pass, store[k := Stored(row)], [InsertRow(row)])
      case _ => Served(Fail(NullId), store, [InsertRow(row)])
  }

  /** A row as the database holds it: every column has a value, if only NULL. */
  predicate Complete(row: Row) {
    && !row.id.Undefined? && !row.nome.Undefined? && !row.idade.Undefined?
    && !row.descricao.Undefined? && !row.email.Undefined? && !row.updatedAt.Undefined?
  }

  /** Every stored row is complete. */
  predicate Filled(store: Store) {
    forall k :: k in store ==> Complete(store[k])
  }

  /** An insert stores a complete row, so it keeps the table filled. */
  lemma InsertKeepsFilled(store: Store, row: Row, fault: Option<Error>)
    requires Filled(store)
    ensures Complete(Stored(row))
    ensures Filled(Insert(store, row, fault).store)
  {
  }

  /** The row whose id equals `id`, if there is one. */
  function Find(store: Store, id: Field<string>): (r: Option<Row>)
    ensures r.Some? <==> id.Val? && id.value in store
    ensures r.Some? ==> r.value.id == id && r.value == store[id.value]
  {
    if id.Val? && id.value in store then Some(store[id.value]) else None
  }

  /** The columns `id, nome, idade, descricao, email` that the listings select. */
  function Columns(row: Row): Row {
    row.(updatedAt := Undefined)
  }

  /** Code-point lexicographic order on names. */
  predicate StrLe(a: string, b: string) {
    |a| == 0 || (|b| > 0 && (a[0] < b[0] || (a[0] == b[0] && StrLe(a[1..], b[1..]))))
  }

  lemma {:induction false} StrLeTotal(a: string, b: string)
    ensures StrLe(a, b) || StrLe(b, a)
  {
    if |a| > 0 && |b| > 0 && a[0] == b[0] {
      StrLeTotal(a[1..], b[1..]);
    }
  }

  lemma {:induction false} StrLeTransitive(a: string, b: string, c: string)
    requires StrLe(a, b) && StrLe(b, c)
    ensures StrLe(a, c)
  {
    if |a| > 0 && a[0] == b[0] && b[0] == c[0] {
      StrLeTransitive(a[1..], b[1..], c[1..]);
    }
  }

  /** `order('nome', { ascending: true })`: names in code-point order, rows with
      a NULL name last (PostgreSQL's default for ascending order). */
  predicate NomeLe(a: Row, b: Row) {
    if a.nome.Val? && b.nome.Val? then StrLe(a.nome.value, b.nome.value)
    else !a.nome.Val? ==> !b.nome.Val?
  }

  lemma NomeLeTotal(a: Row, b: Row)
    ensures NomeLe(a, b) || NomeLe(b, a)
  {
    if a.nome.Val? && b.nome.Val? {
      StrLeTotal(a.nome.value, b.nome.value);
    }
  }

  lemma NomeLeTransitive(a: Row, b: Row, c: Row)
    requires NomeLe(a, b) && NomeLe(b, c)
    ensures NomeLe(a, c)
  {
    if a.nome.Val? && b.nome.Val? && c.nome.Val? {
      StrLeTransitive(a.nome.value, b.nome.value, c.nome.value);
    }
  }

  predicate SortedByNome(rows: seq<Row>) {
    forall i, j :: 0 <= i < j < |rows| ==> NomeLe(rows[i], rows[j])
  }

  /** Places `x` in front of the first row that does not sort before it. */
  function InsertByNome(x: Row, rows: seq<Row>): (r: seq<Row>)
    requires SortedByNome(rows)
    ensures SortedByNome(r)
    ensures |r| == |rows| + 1
    ensures forall y :: y in r <==> y == x || y in rows
  {
    if |rows| == 0 then [x]
    else if NomeLe(x, rows[0]) then
      forall j | 0 <= j < |rows| ensures NomeLe(x, rows[j]) {
        if j > 0 { NomeLeTransitive(x, rows[0], rows[j]); }
      }
      [x] + rows
    else
      NomeLeTotal(x, rows[0]);
      var tail := InsertByNome(x, rows[1..]);
      assert forall y :: y in rows <==> y == rows[0] || y in rows[1..] by {
        assert rows == [rows[0]] + rows[1..];
      }
      assert forall y :: y in tail ==> NomeLe(rows[0], y);
      [rows[0]] + tail
  }
}

=== FILE: user_card.dfy ===
/** One entry of the user list: name, address, id and age, each with the
    placeholder shown when it is missing. */
module UserCard {
  import opened Values
  import opened Records
  import opened Table
  import UserService

  const UnknownName := "Identidade Desconhecida"
  const UnknownEmail := "Ponto de Acesso Indefinido"
  const NotAvailable := "N/A"

  /** The four text slots of a card. */
  datatype Card = Card(name: string, email: string, id: string, age: Shown)

  /** The age slot: the number, nothing for NULL, the placeholder only for a
      missing property. */
  function AgeSlot(idade: Field<int>): (r: Shown)
    ensures idade.Val? ==> r == Number(idade.value)
    ensures idade.Null? ==> r == Nothing
    ensures idade.Undefined? ==> r == Text(NotAvailable)
  {
    match idade
    case Undefined => Text(NotAvailable)
    case Null => Nothing
    case Val(n) => Number(n)
  }

  /** The card for a row: each text slot shows the column when it is a
      non-empty string, and its placeholder otherwise. */
  function Render(u: Row): (c: Card)
    ensures c.name != "" && c.email != "" && c.id != ""
    ensures Truthy(u.nome) ==> c.name == u.nome.value
    ensures !Truthy(u.nome) ==> c.name == UnknownName
    ensures Truthy(u.email) ==> c.email == u.email.value
    ensures !Truthy(u.email) ==> c.email == UnknownEmail
    ensures Truthy(u.id) ==> c.id == u.id.value
    ensures !Truthy(u.id) ==> c.id == NotAvailable
    ensures c.age == AgeSlot(u.idade)
  {
    Card(FieldOr(u.nome, UnknownName), FieldOr(u.email, UnknownEmail), FieldOr(u.id, NotAvailable), AgeSlot(u.idade))
  }

  /** A row listed from a filled table has its age column, so its card never
      shows the placeholder for the age: it shows the stored age, and a NULL
      age leaves the slot empty. */
  lemma ListedAgeNeverPlaceholder(rows: seq<Row>, store: Store, u: Row)
    requires Filled(store) && UserService.Listing(rows, store) && u in rows
    ensures u.id.Val? && u.id.value in store
    ensures Render(u).age != Text(NotAvailable)
    ensures store[u.id.value].idade.Val? ==> Render(u).age == Number(store[u.id.value].idade.value)
    ensures store[u.id.value].idade.Null? ==> Render(u).age == Nothing
  {
    assert Complete(store[u.id.value]);
  }
}

=== FILE: user_form.dfy ===
/** The edit/create dialog of the user list: a name and an address, validated,
    then sent as a profile update (editing) or a profile creation (adding). */
module UserForm {
  import opened Values
  import opened Records
  import opened Table
  import opened UserService

  const NameRequired := "Nome é obrigatório"
  const EmailRequired := "Email é obrigatório"
  const EmailInvalid := "Email inválido"
  const UpdateFallback := "Erro ao atualizar usuário. Tente novamente."
  const CreateFallback := "Erro ao criar usuário. Tente novamente."

  /** The form's two fields. */
  datatype Fields = Fields(nome: string, email: string)

  /** The validation message of each field, if any. */
  datatype Errors = Errors(nome: Option<string>, email: Option<string>)

  /** What a submission ends with: the record handed to `onSuccess`, or the
      message shown in the dialog. */
  datatype Submitted = Saved(record: Row) | Refused(message: string)

  /** The schema: a name is required; an address is required and must be an
      address by the library's rule `isEmail`; an empty one gets the
      "required" message instead. */
  function Validate(v: Fields, isEmail: string -> bool): (r: Errors)
    ensures r.nome.None? <==> v.nome != ""
    ensures r.email.None? <==> v.email != "" && isEmail(v.email)
    ensures r.email == Some(EmailRequired) <==> v.email == ""
  {
    Errors(if v.nome == "" then Some(NameRequired) else None,
           if v.email == "" then Some(EmailRequired)
           else if !isEmail(v.email) then Some(EmailInvalid)
           else None)
  }

  /** `Boolean(currentUser)` */
  predicate IsEditing(current: Option<Row>) {
    current.Some?
  }

  /** The fields as the dialog opens: the record's name and address, or blanks. */
  function Initial(current: Option<Row>): (v: Fields)
    ensures current.Some? && Truthy(current.value.nome) ==> v.nome == current.value.nome.value
    ensures current.Some? && Truthy(current.value.email) ==> v.email == current.value.email.value
    // a missing, NULL or empty column opens as a blank field
    ensures current.Some? && !Truthy(current.value.nome) ==> v.nome == ""
    ensures current.Some? && !Truthy(current.value.email) ==> v.email == ""
    ensures current.None? ==> v == Fields("", "")
  {
    match current
    case Some(c) => Fields(FieldOr(c.nome, ""), FieldOr(c.email, ""))
    case None => Fields("", "")
  }

  /** `{ ...currentUser, ...values }` */
  function Merge(current: Row, v: Fields): Row {
    current.(nome := Val(v.nome), email := Val(v.email))
  }

  /** The form's values as the object `createUserProfile` receives: no id, no
      age, no description. */
  function AsRow(v: Fields): Row {
    Row(Undefined, Val(v.nome), Undefined, Undefined, Val(v.email), Undefined)
  }

  /** The update a form sends: only `nome` is one of the columns updated. */
  function AsPatch(v: Fields): Attributes {
    Attributes(Val(v.nome), Undefined, Undefined)
  }

  /** `onSubmit(values)` once validation passed, stamped with the clock reading `now`. */
  function Submit(current: Option<Row>, v: Fields, store: Store, now: int, fault: Option<Error>)
    : (r: Served<Submitted>)
    ensures IsEditing(current) ==> r.calls == [UpdateRow(current.value.id, AsPatch(v))]
    ensures !IsEditing(current) ==> r.calls == [InsertRow(ProfilePayload(AsRow(v)))]
    ensures r.result.Refused? ==> r.store == store && r.result.message != ""
    // a service error is shown with its own message, else the mode's fallback,
    // and nothing is handed back
    ensures fault.Some? ==>
      && r.store == store
      && r.result == Refused(Or(fault.value.message, if IsEditing(current) then UpdateFallback else CreateFallback))
    ensures IsEditing(current) ==> (r.result.Saved? <==> fault.None?)
    ensures IsEditing(current) && fault.None? ==>
      r.store == UpdateUserProfile(store, current.value.id, AsPatch(v), now, None).store
    // on success the list is handed the record with the form's values on top
    ensures IsEditing(current) && r.result.Saved? ==>
      r.result.record.nome == Val(v.nome) && r.result.record.email == Val(v.email)
      && r.result.record.(nome := current.value.nome, email := current.value.email) == current.value
  {
    match current
    case Some(c) =>
      var up := UpdateUserProfile(store, c.id, AsPatch(v), now, fault);
      if up.result.Fail? then Served(Refused(Or(up.result.error.message, UpdateFallback)), store, up.calls)
      else Served(Saved(Merge(c, v)), up.store, up.calls)
    case None =>
      var cr := CreateUserProfile(store, AsRow(v), fault);
      if cr.result.Fail? then Served(Refused(Or(cr.result.error.message, CreateFallback)), store, cr.calls)
      else Served(Saved(AsRow(v)), cr.store, cr.calls)
  }

  /** Opening the dialog on a record with a name and an address and saving it
      unchanged hands back the same record. */
  lemma ReopenUnchanged(c: Row)
    requires Truthy(c.nome) && Truthy(c.email)
    ensures Merge(c, Initial(Some(c))) == c
  {
  }

  /** The blank dialog is refused on both fields; a record with a name and an
      address the rule accepts opens as a valid form. */
  lemma ValidateInitial(c: Row, isEmail: string -> bool)
    requires Truthy(c.nome) && Truthy(c.email) && isEmail(c.email.value)
    ensures Validate(Initial(None), isEmail) == Errors(Some(NameRequired), Some(EmailRequired))
    ensures Validate(Initial(Some(c)), isEmail) == Errors(None, None)
  {
  }

  /** Editing saves the name but not the address: the stored row keeps its
      email while the record handed back carries the new one. */
  lemma EditKeepsStoredEmail(c: Row, v: Fields, store: Store, now: int)
    requires c.id.Val? && c.id.value in store
    ensures var r := Submit(Some(c), v, store, now, None);
      && r.result == Saved(Merge(c, v))
      && r.store[c.id.value].email == store[c.id.value].email
      && r.store[c.id.value].nome == Val(v.nome)
      && (store[c.id.value].email != Val(v.email) ==> r.store[c.id.value].email != r.result.record.email)
  {
  }

  /** Adding never succeeds against the table: the row it sends has no id. */
  lemma CreateAlwaysRefused(v: Fields, store: Store, now: int, fault: Option<Error>)
    ensures var r := Submit(None, v, store, now, fault);
      && r.result.Refused? && r.store == store
      && (fault.None? ==> r.result == Refused(NullId.message))
  {
  }
}

=== FILE: user_list.dfy ===
/** The user list page: the rows loaded from the table, the search over name and
    address, deletion, and taking back the record an edit dialog returns. The
    state is the one the page settles in once its effects have run: the shown
    rows are always the loaded rows filtered by the search term. */
module UserList {
  import opened Values
  import opened Records
  import opened Table
  import opened Strings
  import opened UserService
  import UserForm

  const LoadFailed := "Falha ao carregar usuários. Tente novamente."
  const DeleteFailed := "Falha ao excluir usuário."

  datatype ListState = ListState(users: seq<Row>, filtered: seq<Row>, term: string, error: string, loading: bool)

  /** The page as it mounts: nothing loaded yet, loading. */
  const Mounted := ListState([], [], "", "", true)

  /** `s?.toLowerCase().includes(term.toLowerCase())` for an optional column. */
  predicate ColumnMatches(f: Field<string>, term: string) {
    f.Val? && Contains(Lower(f.value), Lower(term))
  }

  /** A row is found by a search when its name or its address contains the term,
      ignoring ASCII case. */
  predicate Matches(u: Row, term: string) {
    ColumnMatches(u.nome, term) || ColumnMatches(u.email, term)
  }

  /** `users.filter(u => Matches(u, term))` */
  function Select(users: seq<Row>, term: string): (r: seq<Row>)
    ensures |r| <= |users|
    ensures forall y :: y in r <==> y in users && Matches(y, term)
  {
    if |users| == 0 then []
    else
      assert forall y :: y in users <==> y == users[0] || y in users[1..] by {
        assert users == [users[0]] + users[1..];
      }
      (if Matches(users[0], term) then [users[0]] else []) + Select(users[1..], term)
  }

  /** The rows shown for a search term: all of them when the term is empty. */
  function Filter(users: seq<Row>, term: string): (r: seq<Row>)
    ensures |r| <= |users|
    ensures forall y :: y in r <==> y in users && (term == "" || Matches(y, term))
  {
    if term == "" then users else Select(users, term)
  }

  /** `a` is `b` with some entries dropped and the others kept in their order. */
  predicate Subseq<T(==)>(a: seq<T>, b: seq<T>)
    decreases |b|
  {
    |a| == 0 || (|b| > 0 && ((a[0] == b[0] && Subseq(a[1..], b[1..])) || Subseq(a, b[1..])))
  }

  lemma {:induction false} SubseqRefl<T>(a: seq<T>)
    ensures Subseq(a, a)
  {
    if |a| > 0 {
      SubseqRefl(a[1..]);
    }
  }

  /** The search is `Array.filter`: it keeps every matching row, as often as it
      is listed, in the listed order, and drops every other row. */
  lemma {:induction false} SelectIsFilter(users: seq<Row>, term: string)
    ensures Subseq(Select(users, term), users)
    ensures forall y :: multiset(Select(users, term))[y] == if Matches(y, term) then multiset(users)[y] else 0
  {
    if |users| > 0 {
      SelectIsFilter(users[1..], term);
      var tail := Select(users[1..], term);
      assert users == [users[0]] + users[1..];
      if Matches(users[0], term) {
        assert ([users[0]] + tail)[0] == users[0];
        assert ([users[0]] + tail)[1..] == tail;
      } else {
        assert [] + tail == tail;
      }
    }
  }

  /** The shown rows are the listed rows that the term keeps, in the listed order. */
  lemma FilterIsFilter(users: seq<Row>, term: string)
    ensures Subseq(Filter(users, term), users)
    ensures forall y ::
      multiset(Filter(users, term))[y] == if term == "" || Matches(y, term) then multiset(users)[y] else 0
  {
    if term == "" {
      SubseqRefl(users);
    } else {
      SelectIsFilter(users, term);
    }
  }

  /** Filtering keeps the rows in the order they were listed. */
  lemma {:induction false} SelectKeepsOrder(users: seq<Row>, term: string)
    requires SortedByNome(users)
    ensures SortedByNome(Select(users, term))
  {
    if |users| > 0 {
      var tail := Select(users[1..], term);
      SelectKeepsOrder(users[1..], term);
      if Matches(users[0], term) {
        forall y | y in tail ensures NomeLe(users[0], y) {
          var j :| 0 <= j < |users[1..]| && users[1..][j] == y;
          assert users[j + 1] == y;
        }
      }
    }
  }

  lemma FilterKeepsOrder(users: seq<Row>, term: string)
    requires SortedByNome(users)
    ensures SortedByNome(Filter(users, term))
  {
    if term != "" {
      SelectKeepsOrder(users, term);
    }
  }

  /** Searching the shown rows again for the same term shows the same rows. */
  lemma {:induction false} SelectIdempotent(users: seq<Row>, term: string)
    ensures Select(Select(users, term), term) == Select(users, term)
  {
    if |users| > 0 {
      SelectIdempotent(users[1..], term);
      var tail := Select(users[1..], term);
      if Matches(users[0], term) {
        assert ([users[0]] + tail)[0] == users[0];
        assert ([users[0]] + tail)[1..] == tail;
      } else {
        assert [] + tail == tail;
      }
    }
  }

  /** The search ignores the case of the term. */
  lemma {:induction false} SelectIgnoresCase(users: seq<Row>, term: string)
    ensures Select(users, Lower(term)) == Select(users, term)
  {
    LowerIdempotent(term);
    if |users| > 0 {
      SelectIgnoresCase(users[1..], term);
      assert Matches(users[0], Lower(term)) == Matches(users[0], term);
    }
  }

  lemma SearchIgnoresCase(users: seq<Row>, term: string)
    ensures Filter(users, Lower(term)) == Filter(users, term)
  {
    LowerIdempotent(term);
    if term != "" {
      SelectIgnoresCase(users, term);
    }
  }

  /** The settled state for a list of rows. */
  function Showing(st: ListState, users: seq<Row>): ListState {
    st.(users := users, filtered := Filter(users, st.term))
  }

  /** `fetchUsers()`: without a signed-in user the page leaves for the login
      page; otherwise it loads every row, or records that loading failed. */
  method FetchUsers(st: ListState, user: Option<AuthUser>, store: Store, fault: Option<Error>)
    returns (r: ListState, redirect: Option<string>, calls: seq<Call>)
    ensures user.None? ==> r == st && redirect == Some("/login") && calls == []
    ensures user.Some? ==> redirect.None? && calls == [SelectAll] && !r.loading && r.term == st.term
    ensures user.Some? && fault.None? ==>
      Listing(r.users, store) && r.error == "" && r.filtered == Filter(r.users, r.term)
    ensures user.Some? && fault.Some? ==>
      r.users == st.users && r.filtered == st.filtered && r.error == LoadFailed
  {
    if user.None? {
      return st, Some("/login"), [];
    }
    var rows;
    rows, calls := GetAllUsers(store, fault);
    redirect := None;
    match rows
    case Err(_) =>
      r := st.(error := LoadFailed, loading := false);
    case Ok(data) =>
      r := Showing(st, data).(error := "", loading := false);
  }

  /** A freshly loaded list shows every row of the table with the search term
      in it, in name order. */
  lemma LoadedSearchShowsMatchingRows(rows: seq<Row>, store: Store, term: string)
    requires Listing(rows, store) && term != ""
    ensures SortedByNome(Filter(rows, term))
    ensures forall k :: k in store && Matches(Columns(store[k]), term) ==> Columns(store[k]) in Filter(rows, term)
    ensures forall y :: y in Filter(rows, term) ==> y.id.Val? && y.id.value in store && Matches(y, term)
  {
    FilterKeepsOrder(rows, term);
  }

  /** `users.filter(u => u.id !== userId)` */
  function RemoveId(users: seq<Row>, id: Field<string>): (r: seq<Row>)
    ensures |r| <= |users|
    ensures forall y :: y in r <==> y in users && y.id != id
  {
    if |users| == 0 then []
    else
      assert forall y :: y in users <==> y == users[0] || y in users[1..] by {
        assert users == [users[0]] + users[1..];
      }
      (if users[0].id != id then [users[0]] else []) + RemoveId(users[1..], id)
  }

  /** Removing by id is `Array.filter`: every row with another id stays, as often
      as it is listed, in the listed order, and no row with that id stays. */
  lemma {:induction false} RemoveIdIsFilter(users: seq<Row>, id: Field<string>)
    ensures Subseq(RemoveId(users, id), users)
    ensures forall y :: multiset(RemoveId(users, id))[y] == if y.id != id then multiset(users)[y] else 0
  {
    if |users| > 0 {
      RemoveIdIsFilter(users[1..], id);
      var tail := RemoveId(users[1..], id);
      assert users == [users[0]] + users[1..];
      if users[0].id != id {
        assert ([users[0]] + tail)[0] == users[0];
        assert ([users[0]] + tail)[1..] == tail;
      } else {
        assert [] + tail == tail;
      }
    }
  }

  lemma {:induction false} RemoveIdKeepsOrder(users: seq<Row>, id: Field<string>)
    requires SortedByNome(users)
    ensures SortedByNome(RemoveId(users, id))
  {
    if |users| > 0 {
      var tail := RemoveId(users[1..], id);
      RemoveIdKeepsOrder(users[1..], id);
      if users[0].id != id {
        forall y | y in tail ensures NomeLe(users[0], y) {
          var j :| 0 <= j < |users[1..]| && users[1..][j] == y;
          assert users[j + 1] == y;
        }
      }
    }
  }

  /** `handleDeleteUser(userId)`, after the confirmation dialog answered
      `confirmed`. */
  function DeleteUser(st: ListState, store: Store, confirmed: bool, userId: Field<string>,
                      rowFault: Option<Error>, authFault: Option<Error>): (r: Served<ListState>)
    ensures !confirmed ==> r == Served(st, store, [])
    ensures confirmed ==>
      var d := DeleteUserAccount(store, userId, rowFault, authFault);
      r.store == d.store && r.calls == d.calls
    ensures confirmed && rowFault.Some? ==> r.result == st.(error := DeleteFailed)
    ensures confirmed && rowFault.None? ==> r.result == Showing(st, RemoveId(st.users, userId))
    // the identity deletion is an administrator call; when it is refused, whoever
    // is signed in on this page is signed out, whichever user was deleted
    ensures confirmed && rowFault.None? && authFault.Some? ==> SignOut in r.calls
  {
    if !confirmed then Served(st, store, [])
    else
      var d := DeleteUserAccount(store, userId, rowFault, authFault);
      if d.result.Fail? then Served(st.(error := DeleteFailed), d.store, d.calls)
      else Served(Showing(st, RemoveId(st.users, userId)), d.store, d.calls)
  }

  /** The rows of `store` in name order, each with the listed columns, without
      a claim about duplicates. */
  predicate Mirrors(rows: seq<Row>, store: Store) {
    && SortedByNome(rows)
    && (forall k :: k in store ==> Columns(store[k]) in rows)
    && (forall y :: y in rows ==> y.id.Val? && y.id.value in store && y == Columns(store[y.id.value]))
  }

  /** Deleting a row keeps the page in step with the table. */
  lemma DeleteKeepsMirror(st: ListState, store: Store, userId: Field<string>, authFault: Option<Error>)
    requires Mirrors(st.users, store)
    ensures var r := DeleteUser(st, store, true, userId, None, authFault);
      Mirrors(r.result.users, r.store) && SortedByNome(r.result.filtered)
  {
    var r := DeleteUser(st, store, true, userId, None, authFault);
    RemoveIdKeepsOrder(st.users, userId);
    FilterKeepsOrder(r.result.users, st.term);
  }

  /** `users.map(u => u.id === updated.id ? updated : u)` */
  function ReplaceById(users: seq<Row>, updated: Row): (r: seq<Row>)
    ensures |r| == |users|
    ensures forall i :: 0 <= i < |users| ==> r[i] == (if users[i].id == updated.id then updated else users[i])
  {
    seq(|users|, i requires 0 <= i < |users| => if users[i].id == updated.id then updated else users[i])
  }

  /** `handleFormSuccess(updatedUser)`: the list is replaced, and the search
      effect, which depends on it, then filters the new list. */
  function FormSuccess(st: ListState, updated: Row): (r: ListState)
    ensures |r.users| == |st.users|
    ensures forall i :: 0 <= i < |st.users| ==>
      r.users[i] == (if st.users[i].id == updated.id then updated else st.users[i])
    // the search still applies to the new list
    ensures r.term == st.term && r.error == st.error && r.filtered == Filter(r.users, st.term)
  {
    Showing(st, ReplaceById(st.users, updated))
  }

  /** Editing a listed row with a new address: the list shows the new address
      while the table keeps the old one, so the page no longer mirrors the
      table. */
  lemma EditedEmailOnlyInList(st: ListState, store: Store, c: Row, v: UserForm.Fields, now: int)
    requires Mirrors(st.users, store) && c in st.users
    requires Val(v.email) != c.email
    ensures var sub := UserForm.Submit(Some(c), v, store, now, None);
      var next := FormSuccess(st, sub.result.record);
      && sub.result == UserForm.Saved(UserForm.Merge(c, v))
      && UserForm.Merge(c, v) in next.users
      && sub.store[c.id.value].email == c.email
      && !Mirrors(next.users, sub.store)
  {
    var sub := UserForm.Submit(Some(c), v, store, now, None);
    var next := FormSuccess(st, sub.result.record);
    var i :| 0 <= i < |st.users| && st.users[i] == c;
    assert next.users[i] == UserForm.Merge(c, v);
    var m := UserForm.Merge(c, v);
    assert m in next.users && m.id == c.id;
    assert m.email != Columns(sub.store[c.id.value]).email;
  }
}

=== FILE: users_service.dfy ===
/** The profile store client (`userService`): the current user's profile, the
    update of a profile, account deletion, the ordered listing, lookup by id and
    profile creation, over the `usuarios` table. */
module UserService {
  import opened Values
  import opened Records
  import opened Table

  /** The replies behind one `getCurrentUserProfile()`: the provider's answer to
      `getUser()` and a fault of the table query. */
  datatype Fetch = Fetch(lookup: UserLookup, fault: Option<Error>)

  /** `getCurrentUserProfile()`: `maybeSingle`, so a missing row is `null`
      without error, and no signed-in user is `null` without a query. */
  function GetCurrentUserProfile(store: Store, f: Fetch): (r: Served<Result<Option<Row>>>)
    ensures r.store == store
    ensures f.lookup.LookupFailed? ==> r.result == Err(f.lookup.error) && r.calls == [GetUser]
    ensures f.lookup == SignedIn(None) ==> r.result == Ok(None) && r.calls == [GetUser]
    ensures f.lookup.SignedIn? && f.lookup.user.Some? ==>
      var id := f.lookup.user.value.id;
      && r.calls == [GetUser, SelectById(Val(id))]
      && (f.fault.Some? ==> r.result == Err(f.fault.value))
      && (f.fault.None? ==> r.result.Ok? && (r.result.value.None? <==> id !in store))
      && (r.result.Ok? && r.result.value.Some? ==> r.result.value.value == store[id])
  {
    match f.lookup
    case LookupFailed(e) => Served(Err(e), store, [GetUser])
    case SignedIn(None) => Served(Ok(None), store, [GetUser])
    case SignedIn(Some(u)) =>
      var calls := [GetUser, SelectById(Val(u.id))];
      if f.fault.Some? then Served(Err(f.fault.value), store, calls)
      else Served(Ok(Find(store, Val(u.id))), store, calls)
  }

  /** An UPDATE assignment: a property left `undefined` is not sent, so the
      column keeps its value. */
  function Assign<T>(current: Field<T>, sent: Field<T>): Field<T> {
    if sent.Undefined? then current else sent
  }

  /** The row after `update({nome, idade, descricao, updated_at: now})`. */
  function Patched(row: Row, a: Attributes, now: int): Row {
    row.(nome := Assign(row.nome, a.nome), idade := Assign(row.idade, a.idade),
         descricao := Assign(row.descricao, a.descricao), updatedAt := Val(now))
  }

  /** `updateUserProfile(userId, userData)`, stamped with the clock reading `now`. */
  function UpdateUserProfile(store: Store, userId: Field<string>, a: Attributes, now: int, fault: Option<Error>)
    : (r: Served<Outcome>)
    ensures r.calls == [UpdateRow(userId, a)]
    ensures fault.Some? ==> r.result == Fail(fault.value) && r.store == store
    ensures fault.None? ==> r.result == Pass && r.store.Keys == store.Keys
    // no other row changes
    ensures forall k :: k in store && userId != Val(k) ==> r.store[k] == store[k]
    // on the matching row only nome, idade, descricao and updated_at change
    ensures fault.None? && userId.Val? && userId.value in store ==>
      var before, after := store[userId.value], r.store[userId.value];
      && after.id == before.id && after.email == before.email
      && after.updatedAt == Val(now)
      && (if a.nome.Undefined? then after.nome == before.nome else after.nome == a.nome)
      && (if a.idade.Undefined? then after.idade == before.idade else after.idade == a.idade)
      && (if a.descricao.Undefined? then after.descricao == before.descricao else after.descricao == a.descricao)
  {
    var calls := [UpdateRow(userId, a)];
    if fault.Some? then Served(Fail(fault.value), store, calls)
    else if userId.Val? && userId.value in store then
      Served(Pass, store[userId.value := Patched(store[userId.value], a, now)], calls)
    else Served(Pass, store, calls)
  }

  /** `deleteUserAccount(userId)`: the row first; the identity only once the row
      is gone; a refused identity deletion ends in a sign-out and still counts as
      success. */
  function DeleteUserAccount(store: Store, userId: Field<string>, rowFault: Option<Error>, authFault: Option<Error>)
    : (r: Served<Outcome>)
    ensures |r.calls| > 0 && r.calls[0] == DeleteRow(userId)
    // the identity only after the row, and the sign-out only after the identity
    ensures rowFault.None? ==>
      r.calls == [DeleteRow(userId), AdminDeleteUser(userId)] + (if authFault.Some? then [SignOut] else [])
    ensures rowFault.Some? ==> r.result == Fail(rowFault.value) && r.store == store && r.calls == [DeleteRow(userId)]
    ensures rowFault.None? ==>
      && r.result == Pass
      && AdminDeleteUser(userId) in r.calls
      && (SignOut in r.calls <==> authFault.Some?)
      && (forall k :: k in r.store <==> k in store && userId != Val(k))
    ensures forall k :: k in r.store ==> k in store && r.store[k] == store[k]
  {
    if rowFault.Some? then Served(Fail(rowFault.value), store, [DeleteRow(userId)])
    else
      var remaining: Store := if userId.Val? then store - {userId.value} else store;
      if authFault.Some? then Served(Pass, remaining, [DeleteRow(userId), AdminDeleteUser(userId), SignOut])
      else Served(Pass, remaining, [DeleteRow(userId), AdminDeleteUser(userId)])
  }

  /** The writes of this client keep every column of every row present: an
      update never sends an `undefined` value into a column, an insert stores
      NULL for a missing property, and a deletion only drops rows. */
  lemma WritesKeepFilled(store: Store, userId: Field<string>, a: Attributes, now: int, data: Row,
                         fault: Option<Error>, authFault: Option<Error>)
    requires Filled(store)
    ensures Filled(UpdateUserProfile(store, userId, a, now, fault).store)
    ensures Filled(CreateUserProfile(store, data, fault).store)
    ensures Filled(DeleteUserAccount(store, userId, fault, authFault).store)
  {
    InsertKeepsFilled(store, ProfilePayload(data), fault);
    if fault.None? && userId.Val? && userId.value in store {
      assert Complete(Patched(store[userId.value], a, now));
    }
  }

  /** `rows` is the whole table, one entry per row with the listed columns,
      ordered by name. */
  predicate Listing(rows: seq<Row>, store: Store) {
    && SortedByNome(rows)
    && |rows| == |store|
    && (forall k :: k in store ==> Columns(store[k]) in rows)
    && (forall y :: y in rows ==> y.id.Val? && y.id.value in store && y == Columns(store[y.id.value]))
  }

  /** `rows` lists exactly the rows under the keys of `store` not in `left`,
      in name order. */
  predicate Partial(rows: seq<Row>, store: Store, left: set<string>) {
    && left <= store.Keys
    && SortedByNome(rows) && |rows| + |left| == |store|
    && (forall k :: k in store && k !in left ==> Columns(store[k]) in rows)
    && (forall y :: y in rows ==> y.id.Val? && y.id.value in store && y.id.value !in left && y == Columns(store[y.id.value]))
  }

  /** Adding the row under one more key keeps a partial listing. */
  lemma PartialStep(rows: seq<Row>, store: Store, left: set<string>, k: string)
    requires Partial(rows, store, left) && k in left
    ensures Partial(InsertByNome(Columns(store[k]), rows), store, left - {k})
  {
    assert |left - {k}| == |left| - 1;
    assert Columns(store[k]).id == Val(k);
  }

  /** The rows of the table, as the ordered SELECT returns them. */
  method SelectOrdered(store: Store) returns (rows: seq<Row>)
    ensures Listing(rows, store)
  {
    rows := [];
    var left := store.Keys;
    assert |left| == |store|;
    while left != {}
      invariant Partial(rows, store, left)
      decreases left
    {
      var k :| k in left;
      PartialStep(rows, store, left, k);
      rows := InsertByNome(Columns(store[k]), rows);
      left := left - {k};
    }
  }

  /** `getAllUsers()`. */
  method GetAllUsers(store: Store, fault: Option<Error>) returns (r: Result<seq<Row>>, calls: seq<Call>)
    ensures calls == [SelectAll]
    ensures fault.Some? ==> r == Err(fault.value)
    ensures fault.None? ==> r.Ok? && Listing(r.value, store)
  {
    calls := [SelectAll];
    if fault.Some? {
      return Err(fault.value), calls;
    }
    var rows := SelectOrdered(store);
    return Ok(rows), calls;
  }

  /** `getUserById(userId)`: `single`, so a missing row is an error. */
  function GetUserById(store: Store, userId: Field<string>, fault: Option<Error>): (r: Served<Result<Row>>)
    ensures r.store == store && r.calls == [SelectById(userId)]
    ensures fault.Some? ==> r.result == Err(fault.value)
    ensures fault.None? ==> (r.result.Err? <==> Find(store, userId).None?)
    ensures fault.None? && r.result.Err? ==> r.result.error == NotSingle
    ensures r.result.Ok? ==> r.result.value.id == userId && r.result.value == Columns(store[userId.value])
  {
    var calls := [SelectById(userId)];
    if fault.Some? then Served(Err(fault.value), store, calls)
    else
      match Find(store, userId)
      case None => Served(Err(NotSingle), store, calls)
      case Some(row) => Served(Ok(Columns(row)), store, calls)
  }

  /** A missing profile is `null` for the current user but an error by id. */
  lemma MissingRowContrast(store: Store, u: AuthUser)
    requires u.id !in store
    ensures GetCurrentUserProfile(store, Fetch(SignedIn(Some(u)), None)).result == Ok(None)
    ensures GetUserById(store, Val(u.id), None).result == Err(NotSingle)
  {
  }

  /** The five columns `createUserProfile` copies from its argument. */
  function ProfilePayload(data: Row): Row {
    Row(data.id, data.nome, data.idade, data.descricao, data.email, Undefined)
  }

  /** `createUserProfile(userData)`: one insert of id, nome, idade, descricao and
      email; the answer carries no rows. */
  function CreateUserProfile(store: Store, data: Row, fault: Option<Error>): (r: Served<Outcome>)
    ensures r.calls == [InsertRow(ProfilePayload(data))]
    // a reachable table takes the row exactly when its id is given and free
    ensures r.result.Pass? <==> fault.None? && data.id.Val? && data.id.value !in store
    ensures r.result.Pass? ==> r.store == store[data.id.value := Stored(ProfilePayload(data))]
    ensures r.result.Fail? ==> r.store == store
    ensures fault.Some? ==> r.result == Fail(fault.value)
    ensures r.result.Pass? ==>
      && data.id.Val? && data.id.value !in store
      && r.store.Keys == store.Keys + {data.id.value}
      && (forall k :: k in store ==> r.store[k] == store[k])
      && var row := r.store[data.id.value];
      && row.id == data.id && row.nome == Column(data.nome) && row.idade == Column(data.idade)
      && row.descricao == Column(data.descricao) && row.email == Column(data.email)
    ensures fault.None? && data.id.Val? && data.id.value in store ==> r.result == Fail(DuplicateKey)
    ensures fault.None? && !data.id.Val? ==> r.result.Fail?
  {
    Insert(store, ProfilePayload(data), fault)
  }

  /** A profile created for the signed-in user is what the next fetch of the
      current profile returns; creating it again fails on the primary key. */
  lemma CreatedProfileFetched(store: Store, data: Row, u: AuthUser)
    requires data.id == Val(u.id) && u.id !in store
    ensures var c := CreateUserProfile(store, data, None);
      && c.result == Pass
      && GetCurrentUserProfile(c.store, Fetch(SignedIn(Some(u)), None)).result == Ok(Some(Stored(ProfilePayload(data))))
      && CreateUserProfile(c.store, data, None).result == Fail(DuplicateKey)
  {
  }
}

=== FILE: values.dfy ===
/** JavaScript-level values shared by every module: optional object properties,
    service results, error objects and what a JSX text slot renders. */
module Values {

  /** A property of a JavaScript object: missing (`undefined`), `null`, or a value. */
  datatype Field<+T> = Undefined | Null | Val(value: T)

  datatype Option<+T> = None | Some(value: T)

  /** An error object as the services hand it on; the empty message stands for an
      error object whose `message` is missing. */
  datatype Error = Error(message: string)

  /** The `{ data, error }` record of a service: on failure `data` is null. */
  datatype Result<+T> = Ok(value: T) | Err(error: Error)

  /** The `{ error }` record of a service that returns no data. */
  datatype Outcome = Pass | Fail(error: Error)

  /** A value reaching a `catch` block: an error object, or a bare string that was thrown. */
  datatype Thrown = ErrorObject(message: string) | Str(text: string)

  /** What a JSX text slot shows: a string, a number, or nothing at all (`null`). */
  datatype Shown = Text(text: string) | Number(n: int) | Nothing

  /** JavaScript truthiness of an optional string. */
  predicate Truthy(s: Field<string>) {
    s.Val? && s.value != ""
  }

  /** `s || fallback` for an optional string. */
  function FieldOr(s: Field<string>, fallback: string): string {
    if Truthy(s) then s.value else fallback
  }

  /** `s || fallback` for a string (the empty string is falsy). */
  function Or(s: string, fallback: string): string {
    if s != "" then s else fallback
  }

  /** `thrown.message`, read as an optional string: a primitive string has no
      `message` property, so reading it yields `undefined`, shown here as "". */
  function MessageOf(t: Thrown): string {
    match t
    case ErrorObject(m) => m
    case Str(_) => ""
  }
}
